=== FILE: README.md ===
# hydrowatch decision logic in Dafny

hydrowatch is a water-monitoring dashboard: a NestJS backend that stores
river levels, dam capacities and rainfall, raises threshold alerts, and pushes
updates to subscribed browsers, plus a React frontend. This project models the
small pieces of decision logic under the CRUD and UI glue:

- the threshold alert engine: the enums and request bodies of alert
  configurations, the per-operator threshold test, the severity grading, the
  message template, the evaluation step that opens at most one unresolved alert
  per configuration, acknowledgement, and the owner checks on update and delete;
- the reading classifiers: dam fill status, river flood risk, rainfall
  intensity, month-to-season mapping with per-season accumulation, and the
  drought / flood bands of the risk indicators, with the services' not-found
  guards and derived fields around them;
- the fixed-window rate limiter as a per-key counter map;
- the WebSocket subscription registries of the river and dam gateways;
- the retry / back-off decision, the error classification and the client cache
  of the outbound API client;
- the guard order of user update and delete;
- the UI store reducers and the alert form's channel toggle, type reset and
  initial values.

Stores are immutable values (sequences and maps) and every operation is a
function from the old store to the new one, returning `Result` where the
source throws. Numbers are `real`. The clock, the current year, random numbers
and JavaScript's number-to-string conversion enter as parameters (`now`,
`currentYear`, `rand`, `fmt`).

Layout: `wrappers.dfy` (Option, Result, HTTP errors), `alert_config_dto.dfy`,
`alerts_service.dfy`, `readings.dfy` (latest row and date window of
time-stamped rows, shared by dams and river), `dams_service.dfy`,
`river_service.dfy`, `rainfall_service.dfy`, `rate_limit.dfy`,
`subscriptions.dfy` (the registry both gateways use), `river_gateway.dfy`,
`dams_gateway.dfy`, `api_client.dfy`, `users_service.dfy`, `ui_store.dfy`,
`alert_form.dfy`.

### Where the model departs from a plain reading

- `calculateSeverity` divides by the threshold. Rather than forbid a zero
  threshold, the model gives it JavaScript's result: a non-zero deviation over
  0 is +Infinity, hence critical; 0 over 0 is NaN, which compares false, hence
  info. A negative threshold makes every percentage negative, so such
  configurations are always graded info (`AlertsService.NegativeThresholdIsAlwaysInfo`).
- The river tests expect level 280 (backend/src/river/river.service.spec.ts:51-54)
  and level 285 (backend/src/river/river.service.spec.ts:89-112) against danger
  level 290 to be safe. The code grades both as warnings, because both are at or
  above 80% of 290 = 232. The same test file expects 232 to be a warning, and no
  classifier that grows with the level can meet both expectations. The model
  follows the code (`RiverService.BelowDangerButAboveEightyPercentIsWarning`,
  `RiverService.CurrentLevelAt285IsWarning`).
- A rejected rate-limited request does not leave the stored map exactly as it
  was: the clean-up of expired records runs first, on every request. The model
  states that a 429 leaves the cleaned-up map unchanged.
- `createConfiguration` spreads the body into the insert, so an absent
  `enabled` is filled by the database default. The model uses the documented
  default, true; the database schema is not part of this model.
- `updateDto.role &&` is a truthiness test: a role of `""` is not treated as a
  role change, yet it is written to the row. `UsersService.NonAdminKeepsRoles`
  states this. The update DTO's own validation is not part of this model.
- The gateways' subscribe and unsubscribe handlers decorate only their
  message body, so the framework does not bind the socket to `client`. The
  handlers as invoked (`...AsWritten` members, see "## Findings") throw and
  subscribe nobody, and a first subscribe to a topic leaves it mapped to an
  empty set. The main gateway members model the handlers with the sending
  socket bound, as evidently intended.

## Model

| member | source | states |
|---|---|---|
| AlertConfigDto.ParseAlertType | backend/src/alerts/dto/alert-config.dto.ts:4-9 | `IsEnum(AlertType)` accepts exactly river, dam, groundwater and rainfall, each as the value of that name |
| AlertConfigDto.ParseOperator | backend/src/alerts/dto/alert-config.dto.ts:11-15 | exactly gt, lt and eq are accepted operators |
| AlertConfigDto.ParseChannel | backend/src/alerts/dto/alert-config.dto.ts:17-21 | exactly sms, email and push are accepted channels |
| AlertConfigDto.WireNamesRoundTrip | backend/src/alerts/dto/alert-config.dto.ts:4-21 | every enum value's wire name validates back to that value |
| AlertConfigDto.ValidateChannels | backend/src/alerts/dto/alert-config.dto.ts:40-43 | a channel list is accepted iff every element is a channel name; the empty list is accepted; the result lists the same channels in the same order |
| AlertConfigDto.ValidateCreate | backend/src/alerts/dto/alert-config.dto.ts:23-49 | a create body is accepted iff type, operator and every channel are valid; the accepted body holds the values those wire names denote, its channels element by element, and entity, threshold and optional `enabled` unchanged |
| AlertConfigDto.ValidateUpdate | backend/src/alerts/dto/alert-config.dto.ts:51-72 | an update body has only operator, threshold, channels and enabled; absent fields pass and stay absent; a present operator or channel list must be valid and is kept as the values its wire names denote, element by element |
| AlertsService.CheckThresholdText | backend/src/alerts/alerts.service.ts:181-196 | the switch on the stored operator text: a text that is not an operator falls to `default` and answers false; an operator text answers its comparison |
| AlertsService.CheckThresholdExact | backend/src/alerts/alerts.service.ts:186-192 | gt holds iff value > threshold, lt iff value < threshold, eq iff the value lies strictly within 0.01 of the threshold; gt and lt never both hold |
| AlertsService.ValidatedOperatorNeverDefaults | backend/src/alerts/alerts.service.ts:193-194 | for an operator text that passed validation the `default` branch is unreachable |
| AlertsService.SeverityBands | backend/src/alerts/alerts.service.ts:198-205 | for a positive threshold, critical iff the deviation exceeds half the threshold, warning iff it exceeds a fifth but not half, else info; negative threshold always info; zero threshold critical iff the value is non-zero |
| AlertsService.PercentageBands | backend/src/alerts/alerts.service.ts:200-203 | the comparisons of `difference / threshold * 100` with 50 and 20 are the division-free comparisons of 2·difference and 5·difference with the threshold |
| AlertsService.SeverityMonotone | backend/src/alerts/alerts.service.ts:198-205 | for a positive threshold a larger deviation never yields a lower severity |
| AlertsService.NegativeThresholdIsAlwaysInfo | backend/src/alerts/alerts.service.ts:199-204 | a negative threshold grades every reading info |
| AlertsService.AlertMessageDeterminesHead | backend/src/alerts/alerts.service.ts:207-220 | every message starts with `<type> value <phrase>`, and the type and operator can be read back from it whatever the numbers print as |
| AlertsService.MessageHeadParses | backend/src/alerts/alerts.service.ts:213-219 | each of the twelve heads reads back as its own type and operator |
| AlertsService.RiverExceededExample | backend/src/alerts/alerts.service.ts:181-205 | a river reading of 310 against `gt 290` trips and is graded info |
| AlertsService.RiverExceededMessage | backend/src/alerts/alerts.service.ts:207-220 | when the numbers print as `310` and `290`, its message reads `river value exceeded threshold: 310 (threshold: 290)` |
| AlertsService.EvaluatePairs | backend/src/alerts/alerts.service.ts:140-173 | every pair produced carries a configuration of the list that matched, tripped and had no open alert, with the alert built for it under the next fresh id |
| AlertsService.EvaluateThresholds | backend/src/alerts/alerts.service.ts:126-179 | only enabled configurations of the reading's type and entity that trip and have no open alert get one; existing alerts are untouched; each new alert is open, unacknowledged, copies configuration id, type and entity, and has the severity of the reading against the threshold |
| AlertsService.EvaluateKeepsConfigurationOrder | backend/src/alerts/alerts.service.ts:138-178 | the result lists its configurations in the order the query returned them |
| AlertsService.AppendOpenKeepsAtMostOne | backend/src/alerts/alerts.service.ts:147-171 | inserting an open alert for a configuration with none keeps at most one open alert per configuration |
| AlertsService.EvaluatePreservesAtMostOneOpen | backend/src/alerts/alerts.service.ts:140-176 | evaluation preserves "at most one unresolved alert per configuration" |
| AlertsService.EvaluatePreservesValidStore | backend/src/alerts/alerts.service.ts:157-171 | the alerts created get fresh, distinct ids |
| AlertsService.EvaluateLeavesTrippedOpen | backend/src/alerts/alerts.service.ts:147-171 | afterwards every configuration that tripped has an open alert |
| AlertsService.EvaluateOpensNothingWhenAllOpen | backend/src/alerts/alerts.service.ts:149-157 | when every tripping configuration already has an open alert, nothing is created |
| AlertsService.EvaluateIsIdempotent | backend/src/alerts/alerts.service.ts:126-179 | running the evaluation again with the same reading creates nothing and changes nothing |
| AlertsService.StepKeepsOthersOpenness | backend/src/alerts/alerts.service.ts:149-171 | creating an alert for one configuration does not change whether another has an open alert |
| AlertsService.EvaluateOpensExactly | backend/src/alerts/alerts.service.ts:140-176 | with distinct configuration ids, a configuration gets a new alert iff it matches, trips and had no open alert |
| AlertsService.OpenAlertSuppresses | backend/src/alerts/alerts.service.ts:149-157 | a configuration with an open alert gets no new one, whatever the reading |
| AlertsService.AfterAfter | backend/src/alerts/alerts.service.ts:140-176 | inserting the alerts of two consecutive turns equals inserting them together |
| AlertsService.HasOpenAlertGrows | backend/src/alerts/alerts.service.ts:149-154 | an open alert found before later inserts is still found after them |
| AlertsService.FindAlert | backend/src/alerts/alerts.service.ts:108-114 | the lookup by id finds a row with that id, or reports that none has it |
| AlertsService.AcknowledgeAlert | backend/src/alerts/alerts.service.ts:107-124 | NotFound("Alert not found") iff no alert has the id; otherwise that alert becomes acknowledged by the user at `now`, its resolution and other fields unchanged, and every other alert unchanged |
| AlertsService.AcknowledgePreservesAtMostOneOpen | backend/src/alerts/alerts.service.ts:116-123 | acknowledging never touches resolution, so the one-open-alert invariant survives |
| AlertsService.FindConfig | backend/src/alerts/alerts.service.ts:30-36 | the lookup by id finds a configuration with that id, or reports that none has it |
| AlertsService.CreateConfiguration | backend/src/alerts/alerts.service.ts:12-20 | the new configuration is appended, owned by the caller, with the body's fields, enabled unless the body says otherwise |
| AlertsService.UpdateConfiguration | backend/src/alerts/alerts.service.ts:29-46 | NotFound("Alert configuration not found") for an unknown id; NotFound("You can only update your own configurations") exactly when the row found belongs to another user; success exactly when it belongs to the caller, and then only that row changes, in exactly the fields the body carries |
| AlertsService.UpdateKeepsIdentity | backend/src/alerts/alerts.service.ts:42-45 | an update never changes id, owner, type or entity, nor any other row |
| AlertsService.RemoveAt | backend/src/alerts/alerts.service.ts:61-63 | removing one row keeps every other row and adds none |
| AlertsService.DeleteConfiguration | backend/src/alerts/alerts.service.ts:48-66 | NotFound for an unknown id; the ownership NotFound exactly when the row found belongs to another user; success exactly when it belongs to the caller, removing one row and keeping every other configuration, with the success message |
| AlertsService.FindConfigUnique | backend/src/alerts/alerts.service.ts:30-32 | with unique ids the lookup finds exactly the row carrying the id |
| AlertsService.OwnerUpdateSucceeds | backend/src/alerts/alerts.service.ts:29-46 | the owner's update succeeds, the id then finds the same row holding the updated fields, and ids stay unique |
| AlertsService.OwnerDeleteSucceeds | backend/src/alerts/alerts.service.ts:48-66 | the owner's delete succeeds, leaves no row with that id, keeps every other configuration and has one row fewer |
| AlertsService.OtherUsersConfigurationRefused | backend/src/alerts/alerts.service.ts:38-40 | another user's configuration is refused by update and by delete, each with its own ownership message |
| Readings.Latest | backend/src/dams/dams.service.ts:31-34 | the newest row of an owner (earliest stored among equal timestamps), or none iff the owner has no row |
| Readings.LatestAfterNewerRow | backend/src/river/river.service.ts:31-34 | a row newer than all of its owner's rows becomes the latest |
| Readings.LatestIgnoresOtherOwners | backend/src/river/river.service.ts:31-34 | a row of another owner does not change an owner's latest row |
| Readings.Window | backend/src/river/river.service.ts:66-84 | the rows of an owner whose timestamp lies in the optional inclusive window, and only those |
| Readings.LatestIsInUnboundedWindow | backend/src/dams/dams.service.ts:63-91 | without date bounds the history contains the latest row |
| DamsService.CalculateStatus | backend/src/dams/dams.service.ts:116-126 | the status is the highest whose lower bound (75, 90, 100) the percentage reaches, each bound belonging to the upper bucket |
| DamsService.StatusMonotone | backend/src/dams/dams.service.ts:116-126 | a larger percentage never yields a lower status |
| DamsService.StatusTestPoints | backend/src/dams/dams.service.spec.ts:50-69 | 50 normal, 80 warning, 95 critical, 100 overflow; 75 and 90 belong to the upper bucket |
| DamsService.FillPercentage | backend/src/dams/dams.service.ts:47 | percentage · totalCapacity = storage · 100 |
| Wrappers.LookupById | backend/src/dams/dams.service.ts:20-26 | the stored entity iff the id is known, else NotFound naming the kind and the id |
| DamsService.GetDamById | backend/src/dams/dams.service.ts:20-26 | the dam, or NotFound naming the id iff it is unknown |
| DamsService.CreateCapacity | backend/src/dams/dams.service.ts:93-114 | NotFound for an unknown dam with nothing written; otherwise one row with the storage, the dam's capacity, the fill percentage, its status and the body's timestamp or now |
| DamsService.GetCurrentCapacity | backend/src/dams/dams.service.ts:28-61 | NotFound for an unknown dam; no reading gives no storage, percentage 0, normal, no rates and the message; else the newest reading's storage, timestamp, inflow, outflow and power generation, with the status recomputed from it |
| DamsService.CurrentCapacityExample | backend/src/dams/dams.service.spec.ts:72-97 | a latest storage of 750 in a 1000 capacity dam shows 75 percent, warning |
| DamsService.CreateThenCurrent | backend/src/dams/dams.service.ts:28-114 | after recording a reading newer than the dam's others, the current view shows it with the stored percentage and status |
| DamsService.GetCapacityHistory | backend/src/dams/dams.service.ts:63-91 | NotFound iff the dam id is missing or empty; otherwise exactly the dam's rows in the optional window |
| RiverService.CalculateFloodRisk | backend/src/river/river.service.ts:110-124 | first match wins: critical iff level ≥ flood; danger iff flood > level ≥ danger; warning iff below both and ≥ 0.8·danger; else safe |
| RiverService.FloodRiskIsHighestReached | backend/src/river/river.service.ts:110-124 | for 0 ≤ danger ≤ flood the risk is the highest status whose bound (0.8·danger, danger, flood) the level reaches |
| RiverService.FloodRiskMonotone | backend/src/river/river.service.ts:110-124 | for 0 ≤ danger ≤ flood a higher level never yields a lower risk |
| RiverService.InvertedStationNeverDanger | backend/src/river/river.service.ts:115-118 | with flood below danger, any level at or above flood is critical and danger is never returned |
| RiverService.FloodRiskTestPoints | backend/src/river/river.service.spec.ts:56-69 | with danger 290 and flood 295: 232 warning, 291 danger, 296 critical; 295 critical and just under 232 safe |
| RiverService.BelowDangerButAboveEightyPercentIsWarning | backend/src/river/river.service.spec.ts:51-54 | 280 and 285 against danger 290 are warnings, and no monotone classifier grades 232 warning and 280 safe |
| RiverService.GetStationById | backend/src/river/river.service.ts:20-26 | the station, or NotFound naming the id iff it is unknown |
| RiverService.CreateLevel | backend/src/river/river.service.ts:89-108 | NotFound for an unknown station with nothing written; otherwise one row with the level, its flood risk and the body's timestamp or now |
| RiverService.GetCurrentLevel | backend/src/river/river.service.ts:28-57 | NotFound for an unknown station; no reading gives no level, safe and the message; else the newest level with its risk recomputed |
| RiverService.CurrentLevelAt285IsWarning | backend/src/river/river.service.spec.ts:89-112 | a latest level of 285 at danger 290 is shown as a warning |
| RiverService.CreateThenCurrent | backend/src/river/river.service.ts:28-108 | after recording a level newer than the station's others, the current view shows it with the stored status |
| RiverService.GetHistoricalLevels | backend/src/river/river.service.ts:59-87 | NotFound iff the station id is missing or empty; otherwise exactly the station's rows in the optional window |
| RainfallService.GetIntensity | backend/src/rainfall/rainfall.service.ts:157-162 | the highest intensity whose bound (2.5, 7.5, 15) the amount reaches, bounds belonging to the upper bucket |
| RainfallService.IntensityMonotone | backend/src/rainfall/rainfall.service.ts:157-162 | more rain never yields a lower intensity |
| RainfallService.IntensityBoundaries | backend/src/rainfall/rainfall.service.ts:158-161 | 2.5, 7.5 and 15 fall into the higher bucket, values just below into the lower |
| RainfallService.SeasonOf | backend/src/rainfall/rainfall.service.ts:99-109 | months 3–5 summer, 6–9 monsoon, every other month winter |
| RainfallService.SeasonLengths | backend/src/rainfall/rainfall.service.ts:102-108 | of the twelve months, 3 are summer, 4 monsoon and 5 winter |
| RainfallService.InSeason | backend/src/rainfall/rainfall.service.ts:98-112 | the records of one season, and only those |
| RainfallService.AddRecord | backend/src/rainfall/rainfall.service.ts:110-111 | one record adds its rain and one day to its own season and leaves the others |
| RainfallService.Accumulate | backend/src/rainfall/rainfall.service.ts:92-112 | the day counts of the three seasons add up to the number of records and the totals to the total rainfall |
| RainfallService.AccumulatePerSeason | backend/src/rainfall/rainfall.service.ts:92-112 | each season's figures are the count and the rain of exactly that season's records |
| RainfallService.TargetYear | backend/src/rainfall/rainfall.service.ts:79 | an absent or zero year falls back to the current year |
| RainfallService.GetStationById | backend/src/rainfall/rainfall.service.ts:19-25 | the station, or NotFound naming the id iff it is unknown |
| RainfallService.YearRecords | backend/src/rainfall/rainfall.service.ts:81-90 | the station's records of the target year, and only those |
| RainfallService.GetSeasonalAnalysis | backend/src/rainfall/rainfall.service.ts:77-119 | NotFound for an unknown station; otherwise the target year and an accumulation whose days and totals account for every record of that year |
| RainfallService.AverageRainfall | backend/src/rainfall/rainfall.service.ts:141-142 | the average times the count is the total, and the average is 0 with no records |
| RainfallService.DroughtRisk | backend/src/rainfall/rainfall.service.ts:145 | high iff the average is below 10, medium iff in [10, 25), low iff at least 25 |
| RainfallService.FloodRisk | backend/src/rainfall/rainfall.service.ts:146 | high iff the average exceeds 100, medium iff in (50, 100], low iff at most 50 |
| RainfallService.RiskBandsExclusive | backend/src/rainfall/rainfall.service.ts:145-146 | any drought risk means low flood risk, and any flood risk means low drought risk |
| RainfallService.RiskBandsMonotone | backend/src/rainfall/rainfall.service.ts:145-146 | a higher average never raises the drought risk nor lowers the flood risk |
| RainfallService.RecentRecords | backend/src/rainfall/rainfall.service.ts:123-139 | the records of the last 30 days, restricted to the active stations of the region when a region is given, and only those |
| RainfallService.InRegionIff | backend/src/rainfall/rainfall.repository.ts:84-91 | a station belongs to a region's selection iff it is listed with that region and is active |
| RainfallService.GetRiskIndicators | backend/src/rainfall/rainfall.service.ts:121-155 | region label (`all` when none), the average of the selected records, both bands of that average, period `30 days` |
| RainfallService.NoDataMeansDrought | backend/src/rainfall/rainfall.service.ts:141-146 | with no recent records drought risk is high and flood risk low |
| RainfallService.InactiveRegionMeansDrought | backend/src/rainfall/rainfall.service.ts:129-146 | a region whose stations are all deactivated selects no record, so drought risk is high and flood risk low whatever those stations recorded |
| RainfallService.ForecastLength | backend/src/rainfall/rainfall.service.ts:27-35 | 7 entries by default, the given count otherwise, none for a negative count |
| RainfallService.GetForecast | backend/src/rainfall/rainfall.service.ts:27-51 | NotFound for an unknown station; otherwise exactly that many entries, entry i i days ahead, rainfall in [0, 50), confidence in [75, 95), intensity graded from a separate random amount |
| RateLimit.RequestKey | backend/src/common/middleware/rate-limit.middleware.ts:11 | the ip, else the remote address, else `unknown`, empty strings counting as absent |
| RateLimit.Cleanup | backend/src/common/middleware/rate-limit.middleware.ts:40-46 | removes exactly the records with now > resetTime and keeps the others unchanged |
| RateLimit.Use | backend/src/common/middleware/rate-limit.middleware.ts:10-38 | after clean-up: no live record opens a window (count 1, ending now + 60000) and allows; allowed iff count < 100, an allowed request adds exactly 1; a 429 leaves the cleaned-up map unchanged |
| RateLimit.RejectLeavesLiveStateUnchanged | backend/src/common/middleware/rate-limit.middleware.ts:28-34 | when no stored window has ended, a 429 leaves the stored map exactly as it was |
| RateLimit.ExpiredTestIsDead | backend/src/common/middleware/rate-limit.middleware.ts:15-19 | after the clean-up no record is expired, so the `now > resetTime` test never fires |
| RateLimit.UsePreservesValid | backend/src/common/middleware/rate-limit.middleware.ts:19-37 | every stored count stays in [1, 100] |
| RateLimit.UseLeavesLiveWindows | backend/src/common/middleware/rate-limit.middleware.ts:14-26 | after a request every stored window ends no earlier than now |
| RateLimit.UseTouchesOnlyItsKey | backend/src/common/middleware/rate-limit.middleware.ts:10-46 | other keys' records change only by the removal of expired ones |
| RateLimit.WindowCap | backend/src/common/middleware/rate-limit.middleware.ts:28-37 | within a live window a key at count c gets at most 100 − c more requests through |
| RateLimit.AtMostMaxPerWindow | backend/src/common/middleware/rate-limit.middleware.ts:7-8 | requests within a minute of a key's first get at most 100 through |
| Subscriptions.Subscribe | backend/src/river/gateways/river.gateway.ts:51-55 | the topic's set gains the client, created if absent; other topics unchanged; no empty set appears |
| Subscriptions.Unsubscribe | backend/src/river/gateways/river.gateway.ts:65-72 | the client leaves the topic's set, the topic is dropped once empty, an unknown topic is a no-op, other topics unchanged |
| Subscriptions.Disconnect | backend/src/river/gateways/river.gateway.ts:35-44 | the client is in no set, every other client keeps its topics, and no empty set remains |
| Subscriptions.SubscribeIdempotent | backend/src/dams/gateways/dams.gateway.ts:50-54 | subscribing twice equals subscribing once |
| Subscriptions.SubscribeThenUnsubscribe | backend/src/dams/gateways/dams.gateway.ts:45-74 | for a client not following the topic, subscribe then unsubscribe restores the registry |
| Subscriptions.DisconnectThenUnsubscribe | backend/src/dams/gateways/dams.gateway.ts:35-43 | after a disconnect the client follows nothing and unsubscribing changes nothing |
| RiverGateway.Init | backend/src/river/gateways/river.gateway.ts:27 | a fresh gateway has no subscription and satisfies the invariant |
| RiverGateway.HandleSubscribeStation | backend/src/river/gateways/river.gateway.ts:46-58 | with the sending socket bound as `client` (the intended handler): the client follows the station, its followers are the old ones plus it, other stations unchanged, invariant kept |
| RiverGateway.HandleUnsubscribeStation | backend/src/river/gateways/river.gateway.ts:60-75 | with the sending socket bound as `client` (the intended handler): the client no longer follows the station, others keep following it, unknown station a no-op, other stations unchanged, invariant kept |
| RiverGateway.HandleDisconnect | backend/src/river/gateways/river.gateway.ts:35-44 | the client follows no station, others unaffected, no station maps to an empty set |
| RiverGateway.SubscribeStationIdempotent | backend/src/river/gateways/river.gateway.ts:46-58 | subscribing twice equals subscribing once |
| RiverGateway.SubscribeThenUnsubscribeStation | backend/src/river/gateways/river.gateway.ts:46-75 | for a client not yet following, subscribe then unsubscribe restores the map |
| DamsGateway.Init | backend/src/dams/gateways/dams.gateway.ts:27 | a fresh gateway has no subscription and satisfies the invariant |
| DamsGateway.HandleSubscribeDam | backend/src/dams/gateways/dams.gateway.ts:45-57 | with the sending socket bound as `client` (the intended handler): the client follows the dam, its followers are the old ones plus it, other dams unchanged, invariant kept |
| DamsGateway.HandleUnsubscribeDam | backend/src/dams/gateways/dams.gateway.ts:59-74 | with the sending socket bound as `client` (the intended handler): the client no longer follows the dam, others keep following it, unknown dam a no-op, other dams unchanged, invariant kept |
| DamsGateway.HandleDisconnect | backend/src/dams/gateways/dams.gateway.ts:35-43 | the client follows no dam, others unaffected, no dam maps to an empty set |
| DamsGateway.SubscribeDamIdempotent | backend/src/dams/gateways/dams.gateway.ts:45-57 | subscribing twice equals subscribing once |
| DamsGateway.SubscribeThenUnsubscribeDam | backend/src/dams/gateways/dams.gateway.ts:45-74 | for a client not yet following, subscribe then unsubscribe restores the map |
| Subscriptions.SubscribeUnbound | backend/src/river/gateways/river.gateway.ts:51-55 | with no socket, an unknown topic gains an empty set and nobody is added; the invariant survives iff the topic was known; the handler throws |
| Subscriptions.UnsubscribeUnbound | backend/src/river/gateways/river.gateway.ts:65-73 | with no socket, the handler throws before changing the registry |
| Subscriptions.DisconnectClearsUnboundLeftover | backend/src/river/gateways/river.gateway.ts:35-44 | a later disconnect removes the empty set an unbound subscribe left |
| RiverGateway.HandleSubscribeStationAsWritten | backend/src/river/gateways/river.gateway.ts:46-58 | as invoked (client undefined): throws, subscribes nobody, every other station kept with its followers unchanged, invariant kept iff the station was known |
| RiverGateway.HandleUnsubscribeStationAsWritten | backend/src/river/gateways/river.gateway.ts:60-75 | as invoked (client undefined): throws and leaves the gateway unchanged |
| RiverGateway.UnboundStationSubscribeLeavesEmptySet | backend/src/river/gateways/river.gateway.ts:46-58 | on a fresh gateway the as-invoked subscribe leaves `station-1` mapped to an empty set, while the intended handler subscribes the client |
| DamsGateway.HandleSubscribeDamAsWritten | backend/src/dams/gateways/dams.gateway.ts:45-57 | as invoked (client undefined): throws, subscribes nobody, every other dam kept with its followers unchanged, invariant kept iff the dam was known |
| DamsGateway.HandleUnsubscribeDamAsWritten | backend/src/dams/gateways/dams.gateway.ts:59-74 | as invoked (client undefined): throws and leaves the gateway unchanged |
| DamsGateway.UnboundDamSubscribeLeavesEmptySet | backend/src/dams/gateways/dams.gateway.ts:45-57 | on a fresh gateway the as-invoked subscribe leaves `dam-1` mapped to an empty set, while the intended handler subscribes the client |
| ApiClient.NewClient | backend/src/data-integration/services/api-client.service.ts:24-28 | base URL, 30000 ms timeout and the default retry policy, each overridden by an option that is set; a policy given by the caller also lands in the request defaults under `retry` |
| ApiClient.CreateClient | backend/src/data-integration/services/api-client.service.ts:15-28 | a cached client is returned with the cache unchanged; otherwise a new client is stored under the base URL |
| ApiClient.CreateClientCached | backend/src/data-integration/services/api-client.service.ts:19-22 | a repeat call returns the same client whatever its options, and the cache gains at most one key |
| ApiClient.RequestClient | backend/src/data-integration/services/api-client.service.ts:120-134 | `get` and `post` use the client of the request's base URL, or of `""`, created without options |
| ApiClient.HandleError | backend/src/data-integration/services/api-client.service.ts:87-114 | a response's status and message; a request without response 503 with the fixed message; otherwise 500; hence a status below 500 is always the upstream's own, and a failure without a response is always a 5xx |
| ApiClient.OnError | backend/src/data-integration/services/api-client.service.ts:46-79 | the intended decision: retry iff the counter is below maxRetries and the status (0 without response) is retryable; the k-th retry waits retryDelay·2^(k−1); otherwise, and always without a request config, the classified failure |
| ApiClient.OnErrorAsWritten | backend/src/data-integration/services/api-client.service.ts:46-79 | as written: without a request config the interceptor throws a TypeError; a client given its own policy never retries and rejects with the classified failure; a default client decides as intended |
| ApiClient.MissingConfigThrows | backend/src/data-integration/services/api-client.service.ts:52-55 | a 503 without request config throws as written, where the corrected decision reports 503 |
| ApiClient.CustomPolicyNeverRetries | backend/src/data-integration/services/api-client.service.ts:24-28 | every client created with its own policy rejects every failure as written, whatever the policy allows |
| ApiClient.CustomPolicyFirst503 | backend/src/data-integration/services/api-client.service.ts:53-58 | a client created to retry three times on 503 gives up on the first 503 as written, where the intended decision retries after 500 ms |
| ApiClient.RetriesBounded | backend/src/data-integration/services/api-client.service.ts:57-72 | at most maxRetries − count retries, the i-th waiting retryDelay·2^(count+i) |
| ApiClient.DefaultSchedule | backend/src/data-integration/services/api-client.service.ts:46-65 | under the default policy a request failing with 503 is retried after 1000, 2000 and 4000 ms, then given up |
| ApiClient.DefaultNeverRetriesMissingResponse | backend/src/data-integration/services/api-client.service.ts:57-62 | under the default policy a failure without response is never retried |
| UsersService.Update | backend/src/users/users.service.ts:45-77 | NotFound first for an unknown user; Forbidden for a non-admin on another profile; Forbidden for a non-admin supplying a role; success iff admin, or own profile without a role; only that user changes: each field the body carries is overwritten and each absent field (email, name, role) keeps its stored value |
| UsersService.AdminUpdatesAnyone | backend/src/users/users.service.ts:55-76 | an admin may update any existing user, role included |
| UsersService.NonAdminCannotChangeOwnRole | backend/src/users/users.service.ts:60-63 | a non-admin supplying a role is refused even on their own profile |
| UsersService.NonAdminKeepsRoles | backend/src/users/users.service.ts:55-76 | a non-admin's successful update touches only their own row and changes its role at most to `""` |
| UsersService.Delete | backend/src/users/users.service.ts:79-98 | NotFound for an unknown user, then Forbidden unless admin; success iff both pass, removing exactly that user and returning the message |
| UiStore.Init | frontend/lib/stores/ui-store.ts:13-16 | sidebar closed and no modal recorded |
| UiStore.SetSidebarOpen | frontend/lib/stores/ui-store.ts:14 | the sidebar becomes exactly the value given; modals unchanged |
| UiStore.ToggleSidebar | frontend/lib/stores/ui-store.ts:15 | the sidebar flips; modals unchanged |
| UiStore.ToggleTwiceIsIdentity | frontend/lib/stores/ui-store.ts:14-15 | toggling twice restores the state; a toggle is setting the opposite value |
| UiStore.OpenModal | frontend/lib/stores/ui-store.ts:17-20 | only that modal changes, to open; the sidebar unchanged |
| UiStore.CloseModal | frontend/lib/stores/ui-store.ts:21-24 | only that modal changes, to closed, its key kept; the sidebar unchanged |
| UiStore.OpenThenClose | frontend/lib/stores/ui-store.ts:17-24 | closing after opening equals closing, and opening after closing equals opening |
| AlertForm.InitialForm | frontend/app/alerts/configure/page.tsx:159-166 | a new alert starts river / gt, no entity, no threshold text, no channel, enabled; an edited one starts from the configuration, `enabled = false` kept |
| AlertForm.Without | frontend/app/alerts/configure/page.tsx:199 | the channels other than the one filtered out, and only those |
| AlertForm.WithoutAbsent | frontend/app/alerts/configure/page.tsx:199 | filtering out an absent channel changes nothing |
| AlertForm.WithoutKeepsNoDuplicates | frontend/app/alerts/configure/page.tsx:199 | filtering keeps a list duplicate-free |
| AlertForm.WithoutAppended | frontend/app/alerts/configure/page.tsx:198-200 | filtering out a channel just appended to a list without it gives the list back |
| AlertForm.ToggleChannel | frontend/app/alerts/configure/page.tsx:195-202 | a present channel is removed, an absent one appended at the end; its membership flips, every other channel keeps its membership |
| AlertForm.ToggleAbsentTwice | frontend/app/alerts/configure/page.tsx:195-202 | toggling an absent channel twice restores the list exactly |
| AlertForm.ToggleKeepsNoDuplicates | frontend/app/alerts/configure/page.tsx:195-202 | a duplicate-free list stays duplicate-free |
| AlertForm.ToggleFormChannel | frontend/app/alerts/configure/page.tsx:196-201 | the toggle changes only the form's channel list |
| AlertForm.ChangeType | frontend/app/alerts/configure/page.tsx:224-229 | the type changes and the entity resets to `""`; every other field stays |

## Left out

- Controllers, modules, repositories, Prisma queries as such, React Query hooks, the frontend API client and the presentational pages: routing, ORM calls and rendering with no decision logic.
- `getEntityName` and the alert's `entityName`: the lookup is asynchronous and its Promise is stored un-awaited (backend/src/alerts/alerts.service.ts:162), so the field holds no resolved name; the model's alert has no such field.
- `getActiveAlerts`, `getAlertHistory` and `getUserConfigurations` of the alerts service, and the `getActiveAlerts` of dams and river: plain filtered, ordered queries.
- The ordering (`timestamp desc`) and `take: limit` of the history queries: `Readings.Window` returns the matching rows in storage order, without the limit.
- Readings.Latest: among rows with equal timestamps it picks the first stored; the database leaves that choice unspecified.
- IEEE-754 arithmetic: numbers are exact reals; `toFixed(2)` rounding of the stored and returned percentage and of the average rainfall is not modelled; `fmt` stands for number-to-string.
- DamsService.CreateCapacity, DamsService.GetCurrentCapacity: require every dam's total capacity to be non-zero, where JavaScript would store Infinity or NaN.
- The wall clock, calendar arithmetic and time zones: `now` and `currentYear` are parameters; a rainfall record carries its year and month alongside its timestamp, and the forecast dates are day offsets.
- RainfallService.GetForecast: `Math.random` is the parameter `rand`, read in the order of the calls; the forecast values themselves are placeholders.
- Concurrency: the check-then-insert of `evaluateThresholds` can race with a concurrent call; the model runs calls one at a time, and the one-open-alert invariant holds only under that assumption.
- Transport: axios interceptors and re-issue, `sleep`, socket.io rooms and broadcasts, BullMQ queues, schedulers and notification jobs.
- ApiClient.OnError: a retry config given with some fields missing (the source would read `undefined` and throw on `.includes`) is not modelled; a policy is either complete or the default. The retry counter stored on the request config is the `requestConfig` field.
- ApiClient.NewClient: an option explicitly set to `undefined` overrides the default in the source's spread; the model treats it as not set.
- RainfallService.YearRecords: selects the records of the calendar year, whereas the query's upper bound (backend/src/rainfall/rainfall.service.ts:86) is midnight at the start of 31 December, so the source also drops readings taken later that day; the month is taken from the record, not from a local-time `getMonth()`.
- The update-user DTO's validation and the database schema's defaults: neither file is part of this model.

## Findings

| source | as written | input that shows it | evidently intended | confidence | as-written member | corrected member |
|---|---|---|---|---|---|---|
| backend/src/data-integration/services/api-client.service.ts:53-54 | the guard for a missing request config assigns `requestConfig.retry = 0` when `requestConfig` is undefined, which throws a TypeError inside the interceptor | an error with no `config` and a 503 response | such an error is not retried and is rejected with the `handleError` classification (503) | medium, not executed | ApiClient.OnErrorAsWritten | ApiClient.OnError |
| backend/src/data-integration/services/api-client.service.ts:53-58 | a policy passed to `createClient` is spread (line 27) into the client's request defaults under `retry`, the same key the interceptor uses as its counter; axios copies it into every request config, so the counter reads as the policy object, is never reset, and `object < maxRetries` is false | a client created with `{ retry: { maxRetries: 3, retryDelay: 500, retryableStatusCodes: [503] } }` whose request fails with 503 | the request is retried up to maxRetries times with the policy's delays | medium (relies on axios merging unknown config keys), not executed | ApiClient.CustomPolicyFirst503 | ApiClient.OnError |
| backend/src/river/gateways/river.gateway.ts:46-58 | the handler's `client` parameter has no `@ConnectedSocket()` while `data` has `@MessageBody()`; once a WebSocket handler has a parameter decorator the framework fills only the decorated parameters, so `client` is undefined; an unknown station gets an empty set (line 53) and reading `client.id` (line 55) throws, so nobody is subscribed and the registry holds an empty set | a first `subscribe:station` with body `{ stationId: "station-1" }` | the sending socket follows the station and no station maps to an empty set | medium (relies on the framework's parameter resolution), not executed | RiverGateway.HandleSubscribeStationAsWritten | RiverGateway.HandleSubscribeStation |
| backend/src/river/gateways/river.gateway.ts:60-75 | the handler's `client` parameter has no `@ConnectedSocket()` while `data` has `@MessageBody()`; once a WebSocket handler has a parameter decorator the framework fills only the decorated parameters, so `client` is undefined; `clients.delete(client.id)` (line 68) or `client.leave` (line 73) throws and nobody is unsubscribed | an `unsubscribe:station` from a following socket | the socket stops following the station | medium (relies on the framework's parameter resolution), not executed | RiverGateway.HandleUnsubscribeStationAsWritten | RiverGateway.HandleUnsubscribeStation |
| backend/src/dams/gateways/dams.gateway.ts:45-57 | the handler's `client` parameter has no `@ConnectedSocket()` while `data` has `@MessageBody()`; once a WebSocket handler has a parameter decorator the framework fills only the decorated parameters, so `client` is undefined; an unknown dam gets an empty set (line 52) and reading `client.id` (line 54) throws, so nobody is subscribed and the registry holds an empty set | a first `subscribe:dam` with body `{ damId: "dam-1" }` | the sending socket follows the dam and no dam maps to an empty set | medium (relies on the framework's parameter resolution), not executed | DamsGateway.HandleSubscribeDamAsWritten | DamsGateway.HandleSubscribeDam |
| backend/src/dams/gateways/dams.gateway.ts:59-74 | the handler's `client` parameter has no `@ConnectedSocket()` while `data` has `@MessageBody()`; once a WebSocket handler has a parameter decorator the framework fills only the decorated parameters, so `client` is undefined; `clients.delete(client.id)` (line 67) or `client.leave` (line 72) throws and nobody is unsubscribed | an `unsubscribe:dam` from a following socket | the socket stops following the dam | medium (relies on the framework's parameter resolution), not executed | DamsGateway.HandleUnsubscribeDamAsWritten | DamsGateway.HandleUnsubscribeDam |

=== FILE: alert_config_dto.dfy ===
/**
 * The enumerations and request bodies of alert configurations, with the
 * validation the decorators perform: an enum field accepts exactly its wire
 * names, and the channel list is checked element by element.
 */
module AlertConfigDto {
  import opened Wrappers

  datatype AlertType = River | Dam | Groundwater | Rainfall
  datatype ThresholdOperator = Gt | Lt | Eq
  datatype NotificationChannel = Sms | Email | Push

  /** The wire name of an alert type. */
  function AlertTypeName(t: AlertType): string {
    match t
    case River => "river"
    case Dam => "dam"
    case Groundwater => "groundwater"
    case Rainfall => "rainfall"
  }

  /** The wire name of a threshold operator. */
  function OperatorName(op: ThresholdOperator): string {
    match op
    case Gt => "gt"
    case Lt => "lt"
    case Eq => "eq"
  }

  /** The wire name of a notification channel. */
  function ChannelName(c: NotificationChannel): string {
    match c
    case Sms => "sms"
    case Email => "email"
    case Push => "push"
  }

  /** `IsEnum(AlertType)`: exactly the four names are accepted, each as its own value. */
  function ParseAlertType(s: string): (r: Option<AlertType>)
    ensures r.Some? <==> s in {"river", "dam", "groundwater", "rainfall"}
    ensures r.Some? ==> AlertTypeName(r.value) == s
  {
    if s == "river" then Some(River)
    else if s == "dam" then Some(Dam)
    else if s == "groundwater" then Some(Groundwater)
    else if s == "rainfall" then Some(Rainfall)
    else None
  }

  /** `IsEnum(ThresholdOperator)`: exactly gt, lt and eq are accepted. */
  function ParseOperator(s: string): (r: Option<ThresholdOperator>)
    ensures r.Some? <==> s in {"gt", "lt", "eq"}
    ensures r.Some? ==> OperatorName(r.value) == s
  {
    if s == "gt" then Some(Gt)
    else if s == "lt" then Some(Lt)
    else if s == "eq" then Some(Eq)
    else None
  }

  /** `IsEnum(NotificationChannel)` on one element: exactly sms, email and push. */
  function ParseChannel(s: string): (r: Option<NotificationChannel>)
    ensures r.Some? <==> s in {"sms", "email", "push"}
    ensures r.Some? ==> ChannelName(r.value) == s
  {
    if s == "sms" then Some(Sms)
    else if s == "email" then Some(Email)
    else if s == "push" then Some(Push)
    else None
  }

  /** Every enum value survives printing and re-validation, so no value is unreachable. */
  lemma WireNamesRoundTrip(t: AlertType, op: ThresholdOperator, c: NotificationChannel)
    ensures ParseAlertType(AlertTypeName(t)) == Some(t)
    ensures ParseOperator(OperatorName(op)) == Some(op)
    ensures ParseChannel(ChannelName(c)) == Some(c)
  {
  }

  /**
   * `IsArray` with `IsEnum(NotificationChannel, { each: true })`: the list is
   * accepted iff every element is a channel name, and an empty list is accepted.
   */
  function ValidateChannels(xs: seq<string>): (r: Option<seq<NotificationChannel>>)
    ensures r.Some? <==> forall i :: 0 <= i < |xs| ==> ParseChannel(xs[i]).Some?
    ensures r.Some? ==> |r.value| == |xs|
    ensures r.Some? ==> forall i :: 0 <= i < |xs| ==> ChannelName(r.value[i]) == xs[i]
  {
    if xs == [] then Some([])
    else
      match (ParseChannel(xs[0]), ValidateChannels(xs[1..]))
      case (Some(c), Some(rest)) => Some([c] + rest)
      case _ => None
  }

  /** The create body: every field required except `enabled`. */
  datatype CreateAlertConfigDto = CreateAlertConfigDto(
    alertType: AlertType,
    entityId: string,
    operator: ThresholdOperator,
    thresholdValue: real,
    channels: seq<NotificationChannel>,
    enabled: Option<bool>)

  /** The update body: it has no field for the type, the entity or the owner. */
  datatype UpdateAlertConfigDto = UpdateAlertConfigDto(
    operator: Option<ThresholdOperator>,
    thresholdValue: Option<real>,
    channels: Option<seq<NotificationChannel>>,
    enabled: Option<bool>)

  /** A create body as it arrives, before the enum fields are validated. */
  datatype RawCreateBody = RawCreateBody(
    alertType: string,
    entityId: string,
    operator: string,
    thresholdValue: real,
    channels: seq<string>,
    enabled: Option<bool>)

  /** An update body as it arrives, before the enum fields are validated. */
  datatype RawUpdateBody = RawUpdateBody(
    operator: Option<string>,
    thresholdValue: Option<real>,
    channels: Option<seq<string>>,
    enabled: Option<bool>)

  /** Validation of a create body: accepted iff every enum field holds a wire name. */
  function ValidateCreate(b: RawCreateBody): (r: Option<CreateAlertConfigDto>)
    ensures r.Some? <==>
      && ParseAlertType(b.alertType).Some?
      && ParseOperator(b.operator).Some?
      && ValidateChannels(b.channels).Some?
    ensures r.Some? ==>
      && AlertTypeName(r.value.alertType) == b.alertType
      && OperatorName(r.value.operator) == b.operator
      && r.value.entityId == b.entityId
      && r.value.thresholdValue == b.thresholdValue
      && |r.value.channels| == |b.channels|
      && (forall i :: 0 <= i < |b.channels| ==> ChannelName(r.value.channels[i]) == b.channels[i])
      && r.value.enabled == b.enabled
  {
    match (ParseAlertType(b.alertType), ParseOperator(b.operator), ValidateChannels(b.channels))
    case (Some(t), Some(op), Some(cs)) =>
      Some(CreateAlertConfigDto(t, b.entityId, op, b.thresholdValue, cs, b.enabled))
    case _ => None
  }

  /** Validation of an update body: absent fields pass, present enum fields must hold wire names. */
  function ValidateUpdate(b: RawUpdateBody): (r: Option<UpdateAlertConfigDto>)
    ensures r.Some? <==>
      && (b.operator.Some? ==> ParseOperator(b.operator.value).Some?)
      && (b.channels.Some? ==> ValidateChannels(b.channels.value).Some?)
    ensures r.Some? ==>
      && r.value.operator.Some? == b.operator.Some?
      && r.value.channels.Some? == b.channels.Some?
      && (b.operator.Some? ==> OperatorName(r.value.operator.value) == b.operator.value)
      && (b.channels.Some? ==>
            && |r.value.channels.value| == |b.channels.value|
            && forall i :: 0 <= i < |b.channels.value| ==> ChannelName(r.value.channels.value[i]) == b.channels.value[i])
      && r.value.thresholdValue == b.thresholdValue
      && r.value.enabled == b.enabled
  {
    var op := if b.operator.Some? then ParseOperator(b.operator.value) else None;
    var cs := if b.channels.Some? then ValidateChannels(b.channels.value) else None;
    if b.operator.Some? && op.None? then None
    else if b.channels.Some? && cs.None? then None
    else Some(UpdateAlertConfigDto(op, b.thresholdValue, cs, b.enabled))
  }
}

=== FILE: alert_form.dfy ===
/**
 * The alert configuration form: its initial values, the channel toggle, and
 * the reset of the chosen entity when the alert type changes. The threshold is
 * edited as text; `fmt` stands for JavaScript's number-to-string.
 */
module AlertForm {
  import opened Wrappers
  import opened AlertConfigDto
  import opened AlertsService

  datatype FormData = FormData(
    alertType: AlertType,
    entityId: string,
    operator: ThresholdOperator,
    thresholdValue: string,
    channels: seq<NotificationChannel>,
    enabled: bool)

  /**
   * The form's initial values: a new alert starts as river / gt with no entity,
   * no threshold text, no channel and enabled; an edited one starts from the
   * configuration, its `enabled = false` kept because `??` only replaces an
   * absent value.
   */
  function InitialForm(config: Option<AlertConfiguration>, fmt: real -> string): (f: FormData)
    ensures config.None? ==> f == FormData(River, "", Gt, "", [], true)
    ensures config.Some? ==>
      && f.alertType == config.value.alertType
      && f.entityId == config.value.entityId
      && f.operator == config.value.operator
      && f.channels == config.value.channels
      && f.enabled == config.value.enabled
      && f.thresholdValue == fmt(config.value.thresholdValue)
  {
    match config
    case None => FormData(River, "", Gt, "", [], true)
    case Some(c) => FormData(c.alertType, c.entityId, c.operator, fmt(c.thresholdValue), c.channels, c.enabled)
  }

  /** `filter(c => c !== channel)`: every occurrence of `ch` dropped, the rest kept in order. */
  function Without(xs: seq<NotificationChannel>, ch: NotificationChannel): (r: seq<NotificationChannel>)
    ensures forall x :: x in r <==> x in xs && x != ch
    ensures |r| <= |xs|
    decreases |xs|
  {
    if xs == [] then []
    else if xs[0] == ch then Without(xs[1..], ch)
    else [xs[0]] + Without(xs[1..], ch)
  }

  /** Filtering out a channel that is not there changes nothing. */
  lemma {:induction false} WithoutAbsent(xs: seq<NotificationChannel>, ch: NotificationChannel)
    requires ch !in xs
    ensures Without(xs, ch) == xs
    decreases |xs|
  {
    if xs != [] {
      assert xs[0] != ch;
      assert ch !in xs[1..];
      WithoutAbsent(xs[1..], ch);
      assert [xs[0]] + xs[1..] == xs;
    }
  }

  /** No channel occurs twice. */
  predicate NoDuplicates(xs: seq<NotificationChannel>) {
    forall i, j :: 0 <= i < j < |xs| ==> xs[i] != xs[j]
  }

  lemma {:induction false} WithoutKeepsNoDuplicates(xs: seq<NotificationChannel>, ch: NotificationChannel)
    requires NoDuplicates(xs)
    ensures NoDuplicates(Without(xs, ch))
    decreases |xs|
  {
    if xs != [] {
      assert NoDuplicates(xs[1..]) by {
        forall i, j | 0 <= i < j < |xs[1..]| ensures xs[1..][i] != xs[1..][j] {
          assert xs[1..][i] == xs[i + 1] && xs[1..][j] == xs[j + 1];
        }
      }
      WithoutKeepsNoDuplicates(xs[1..], ch);
      if xs[0] != ch {
        assert xs[0] !in xs[1..];
        assert xs[0] !in Without(xs[1..], ch);
      }
    }
  }

  /** `handleChannelToggle`: a present channel is removed, an absent one appended at the end. */
  function ToggleChannel(channels: seq<NotificationChannel>, ch: NotificationChannel): (r: seq<NotificationChannel>)
    ensures ch in channels ==> r == Without(channels, ch)
    ensures ch !in channels ==> r == channels + [ch]
    ensures ch in r <==> ch !in channels
    ensures forall x :: x != ch ==> (x in r <==> x in channels)
  {
    if ch in channels then Without(channels, ch) else channels + [ch]
  }

  /** Toggling an absent channel twice restores the list exactly. */
  lemma ToggleAbsentTwice(channels: seq<NotificationChannel>, ch: NotificationChannel)
    requires ch !in channels
    ensures ToggleChannel(ToggleChannel(channels, ch), ch) == channels
  {
    WithoutAbsent(channels, ch);
    WithoutAppended(channels, ch);
  }

  /** Filtering a channel out of a list that ends with it and holds it nowhere else drops that last element. */
  lemma {:induction false} WithoutAppended(xs: seq<NotificationChannel>, ch: NotificationChannel)
    requires ch !in xs
    ensures Without(xs + [ch], ch) == xs
    decreases |xs|
  {
    if xs == [] {
      assert [ch][1..] == [];
    } else {
      assert (xs + [ch])[1..] == xs[1..] + [ch];
      assert ch !in xs[1..];
      WithoutAppended(xs[1..], ch);
      assert [xs[0]] + xs[1..] == xs;
    }
  }

  /** A duplicate-free channel list stays duplicate-free under a toggle. */
  lemma ToggleKeepsNoDuplicates(channels: seq<NotificationChannel>, ch: NotificationChannel)
    requires NoDuplicates(channels)
    ensures NoDuplicates(ToggleChannel(channels, ch))
  {
    if ch in channels {
      WithoutKeepsNoDuplicates(channels, ch);
    }
  }

  /** The type selector's change handler: the new type, and the chosen entity cleared. */
  function ChangeType(f: FormData, t: AlertType): (r: FormData)
    ensures r.alertType == t && r.entityId == ""
    ensures r.operator == f.operator && r.thresholdValue == f.thresholdValue
    ensures r.channels == f.channels && r.enabled == f.enabled
  {
    f.(alertType := t, entityId := "")
  }

  /** The channel toggle of the form: only the channel list changes. */
  function ToggleFormChannel(f: FormData, ch: NotificationChannel): (r: FormData)
    ensures r.channels == ToggleChannel(f.channels, ch)
    ensures r.(channels := f.channels) == f
  {
    f.(channels := ToggleChannel(f.channels, ch))
  }
}

=== FILE: alerts_service.dfy ===
/**
 * The threshold alert engine: configuration ownership checks, the per-operator
 * threshold test, severity from relative deviation, the message template, and
 * the evaluation step that opens at most one unresolved alert per configuration.
 *
 * The configuration store and the alert store are sequences of records in
 * insertion order; the database's generated alert ids are a counter in the
 * alert store, and the clock is the parameter `now`. Numbers are printed into
 * messages by the parameter `fmt`, which stands for JavaScript's number-to-string.
 */
module AlertsService {
  import opened Wrappers
  import opened AlertConfigDto

  datatype Severity = Info | Warning | Critical

  datatype AlertConfiguration = AlertConfiguration(
    id: string,
    userId: string,
    alertType: AlertType,
    entityId: string,
    operator: ThresholdOperator,
    thresholdValue: real,
    channels: seq<NotificationChannel>,
    enabled: bool)

  datatype Alert = Alert(
    id: nat,
    configurationId: Option<string>,
    alertType: AlertType,
    entityId: string,
    severity: Severity,
    message: string,
    triggeredAt: int,
    resolvedAt: Option<int>,
    acknowledged: bool,
    acknowledgedBy: Option<string>,
    acknowledgedAt: Option<int>)

  /** The alert table: its rows in insertion order and the next id the database hands out. */
  datatype AlertStore = AlertStore(alerts: seq<Alert>, nextId: nat)

  /** A reading submitted for evaluation. */
  datatype Reading = Reading(alertType: AlertType, entityId: string, value: real)

  /** One entry of the evaluation result: the alert just opened and the configuration that opened it. */
  datatype Triggered = Triggered(alert: Alert, config: AlertConfiguration)

  function Abs(x: real): real {
    if x < 0.0 then -x else x
  }

  // ---------------------------------------------------------------------------
  // Store predicates
  // ---------------------------------------------------------------------------

  /** An open alert of configuration `configId`: one with no resolution time. */
  predicate IsOpenFor(a: Alert, configId: string) {
    a.configurationId == Some(configId) && a.resolvedAt.None?
  }

  /** The lookup `findFirst({ configurationId, resolvedAt: null })` finds something. */
  predicate HasOpenAlert(alerts: seq<Alert>, configId: string) {
    exists i :: 0 <= i < |alerts| && IsOpenFor(alerts[i], configId)
  }

  /** The deduplication invariant: no two unresolved alerts share a configuration. */
  ghost predicate AtMostOneOpen(alerts: seq<Alert>) {
    forall i, j ::
      0 <= i < |alerts| && 0 <= j < |alerts| && i != j
      && alerts[i].configurationId.Some? && IsOpenFor(alerts[i], alerts[i].configurationId.value)
      ==> !IsOpenFor(alerts[j], alerts[i].configurationId.value)
  }

  /** Alert ids are distinct and below the next id to be handed out. */
  ghost predicate ValidStore(s: AlertStore) {
    && (forall i :: 0 <= i < |s.alerts| ==> s.alerts[i].id < s.nextId)
    && (forall i, j :: 0 <= i < j < |s.alerts| ==> s.alerts[i].id != s.alerts[j].id)
  }

  /** Configuration ids are distinct, as a primary key makes them. */
  ghost predicate UniqueConfigIds(configs: seq<AlertConfiguration>) {
    forall i, j :: 0 <= i < j < |configs| ==> configs[i].id != configs[j].id
  }

  // ---------------------------------------------------------------------------
  // The threshold test
  // ---------------------------------------------------------------------------

  /** The fixed absolute tolerance of the `eq` operator. */
  const EqTolerance: real := 0.01

  /** `checkThreshold` on a validated operator. */
  function CheckThreshold(value: real, op: ThresholdOperator, threshold: real): bool {
    match op
    case Gt => value > threshold
    case Lt => value < threshold
    case Eq => Abs(value - threshold) < EqTolerance
  }

  /**
   * `checkThreshold` as written, switching on the operator text stored in the
   * configuration row, with its `default` branch answering false.
   */
  function CheckThresholdText(value: real, opText: string, threshold: real): (r: bool)
    ensures ParseOperator(opText).None? ==> !r
    ensures ParseOperator(opText).Some? ==> r == CheckThreshold(value, ParseOperator(opText).value, threshold)
  {
    if opText == "gt" then value > threshold
    else if opText == "lt" then value < threshold
    else if opText == "eq" then Abs(value - threshold) < 0.01
    else false
  }

  /** Each operator trips exactly on its own comparison; `eq` is a two-sided band of width 0.01. */
  lemma CheckThresholdExact(value: real, threshold: real)
    ensures CheckThreshold(value, Gt, threshold) <==> value > threshold
    ensures CheckThreshold(value, Lt, threshold) <==> value < threshold
    ensures CheckThreshold(value, Eq, threshold) <==> threshold - 0.01 < value < threshold + 0.01
    ensures !(CheckThreshold(value, Gt, threshold) && CheckThreshold(value, Lt, threshold))
  {
  }

  /** Every stored operator text that passed validation reaches a real case: the default branch is dead. */
  lemma ValidatedOperatorNeverDefaults(value: real, opText: string, threshold: real)
    requires ParseOperator(opText).Some?
    ensures CheckThresholdText(value, opText, threshold) <==>
      (opText == "gt" && value > threshold)
      || (opText == "lt" && value < threshold)
      || (opText == "eq" && Abs(value - threshold) < EqTolerance)
  {
  }

  // ---------------------------------------------------------------------------
  // Severity
  // ---------------------------------------------------------------------------

  function SeverityRank(s: Severity): nat {
    match s
    case Info => 0
    case Warning => 1
    case Critical => 2
  }

  /**
   * `calculateSeverity`: the deviation as a percentage of the threshold, over 50
   * critical, over 20 warning, otherwise info. A zero threshold is evaluated as
   * JavaScript does it: a non-zero deviation divided by zero is +Infinity
   * (critical) and zero divided by zero is NaN, which compares false (info).
   */
  function CalculateSeverity(current: real, threshold: real): Severity {
    var difference := Abs(current - threshold);
    if threshold == 0.0 then
      if difference > 0.0 then Critical else Info
    else
      var percentage := difference / threshold * 100.0;
      if percentage > 50.0 then Critical
      else if percentage > 20.0 then Warning
      else Info
  }

  /**
   * The severity bands without division: for a positive threshold, critical iff the
   * deviation exceeds half the threshold and warning iff it exceeds a fifth but not
   * half; a negative threshold always gives info; a zero threshold gives critical
   * for any non-zero reading and info for zero.
   */
  lemma SeverityBands(current: real, threshold: real)
    ensures var s, d := CalculateSeverity(current, threshold), Abs(current - threshold);
      && (threshold > 0.0 ==> (s == Critical <==> 2.0 * d > threshold))
      && (threshold > 0.0 ==> (s == Warning <==> 5.0 * d > threshold >= 2.0 * d))
      && (threshold < 0.0 ==> s == Info)
      && (threshold == 0.0 ==> (s == Critical <==> current != 0.0) && s != Warning)
  {
    if threshold != 0.0 {
      PercentageBands(Abs(current - threshold), threshold);
    }
  }

  /** The two percentage comparisons restated without division. */
  lemma PercentageBands(difference: real, threshold: real)
    requires threshold != 0.0 && difference >= 0.0
    ensures threshold > 0.0 ==> (difference / threshold * 100.0 > 50.0 <==> 2.0 * difference > threshold)
    ensures threshold > 0.0 ==> (difference / threshold * 100.0 > 20.0 <==> 5.0 * difference > threshold)
    ensures threshold < 0.0 ==> difference / threshold * 100.0 <= 0.0
  {
    var q := difference / threshold;
    assert q * threshold == difference;
    if threshold > 0.0 {
      assert 2.0 * difference == 2.0 * q * threshold;
      assert 5.0 * difference == 5.0 * q * threshold;
    } else {
      assert q <= 0.0;
    }
  }

  /** For a positive threshold, a larger deviation never yields a lower severity. */
  lemma SeverityMonotone(threshold: real, current1: real, current2: real)
    requires threshold > 0.0
    requires Abs(current1 - threshold) <= Abs(current2 - threshold)
    ensures SeverityRank(CalculateSeverity(current1, threshold)) <= SeverityRank(CalculateSeverity(current2, threshold))
  {
    SeverityBands(current1, threshold);
    SeverityBands(current2, threshold);
  }

  /**
   * A negative threshold makes the percentage negative, so every deviation,
   * however large, is graded info.
   */
  lemma NegativeThresholdIsAlwaysInfo(current: real, threshold: real)
    requires threshold < 0.0
    ensures CalculateSeverity(current, threshold) == Info
  {
    SeverityBands(current, threshold);
  }

  // ---------------------------------------------------------------------------
  // Message
  // ---------------------------------------------------------------------------

  /** The verb phrase of the message template, chosen by the operator. */
  function Phrase(op: ThresholdOperator): string {
    match op
    case Gt => "exceeded"
    case Lt => "dropped below"
    case Eq => "reached"
  }

  /**
   * Reads the alert type and the operator back out of a message: the type names
   * differ within their first two characters, and the phrases in their first.
   */
  function ParseMessageHead(m: string): Option<(AlertType, ThresholdOperator)> {
    var t :=
      if |m| >= 2 && m[0] == 'r' && m[1] == 'i' then Some(River)
      else if |m| >= 2 && m[0] == 'r' && m[1] == 'a' then Some(Rainfall)
      else if |m| >= 1 && m[0] == 'd' then Some(Dam)
      else if |m| >= 1 && m[0] == 'g' then Some(Groundwater)
      else None;
    if t.None? then None
    else
      var k := |AlertTypeName(t.value)| + |" value "|;
      if |m| <= k then None
      else if m[k] == 'e' then Some((t.value, Gt))
      else if m[k] == 'd' then Some((t.value, Lt))
      else if m[k] == 'r' then Some((t.value, Eq))
      else None
  }

  /**
   * `generateAlertMessage`: `<type> value <phrase> threshold: <current> (threshold: <threshold>)`.
   */
  function AlertMessage(t: AlertType, current: real, op: ThresholdOperator, threshold: real, fmt: real -> string): string {
    MessageHead(t, op) + MessageTail(fmt(current), fmt(threshold))
  }

  /** The part of a message that shows the two numbers. */
  function MessageTail(current: string, threshold: string): string {
    " threshold: " + current + " (threshold: " + threshold + ")"
  }

  /** The part of a message fixed by its type and operator. */
  function MessageHead(t: AlertType, op: ThresholdOperator): string {
    AlertTypeName(t) + " value " + Phrase(op)
  }

  /** The head alone already parses to its type and operator. */
  lemma MessageHeadParses(t: AlertType, op: ThresholdOperator)
    ensures ParseMessageHead(MessageHead(t, op)) == Some((t, op))
  {
    var head := MessageHead(t, op);
    var k := |AlertTypeName(t)| + |" value "|;
    assert head[k] == Phrase(op)[0];
    match t
    case River => assert head[0] == 'r' && head[1] == 'i';
    case Rainfall => assert head[0] == 'r' && head[1] == 'a';
    case Dam => assert head[0] == 'd';
    case Groundwater => assert head[0] == 'g';
  }

  /** The parse reads only characters of a head that parses, so what follows it does not matter. */
  lemma ParseIgnoresTail(head: string, tail: string)
    requires ParseMessageHead(head).Some?
    ensures ParseMessageHead(head + tail) == ParseMessageHead(head)
  {
    var m := head + tail;
    assert forall i :: 0 <= i < |head| ==> m[i] == head[i];
  }

  /** Whatever the number formatting, a message determines its alert type and operator. */
  lemma AlertMessageDeterminesHead(t: AlertType, current: real, op: ThresholdOperator, threshold: real, fmt: real -> string)
    ensures ParseMessageHead(AlertMessage(t, current, op, threshold, fmt)) == Some((t, op))
    ensures MessageHead(t, op) <= AlertMessage(t, current, op, threshold, fmt)
  {
    MessageHeadParses(t, op);
    ParseIgnoresTail(MessageHead(t, op), MessageTail(fmt(current), fmt(threshold)));
  }

  /** The worked example: a river reading of 310 against a `gt 290` rule trips and is graded info. */
  lemma RiverExceededExample()
    ensures CheckThreshold(310.0, Gt, 290.0)
    ensures CalculateSeverity(310.0, 290.0) == Info
  {
    SeverityBands(310.0, 290.0);
  }

  /** The message of the worked example, when the numbers print as integers. */
  lemma RiverExceededMessage(fmt: real -> string)
    requires fmt(310.0) == "310" && fmt(290.0) == "290"
    ensures AlertMessage(River, 310.0, Gt, 290.0, fmt) == "river value exceeded threshold: 310 (threshold: 290)"
  {
    assert MessageHead(River, Gt) == "river value exceeded";
    assert MessageTail("310", "290") == " threshold: 310 (threshold: 290)";
    RiverExceededText();
  }

  /** The example message, as the concatenation of its head and its tail. */
  lemma RiverExceededText()
    ensures "river value exceeded" + " threshold: 310 (threshold: 290)" == "river value exceeded threshold: 310 (threshold: 290)"
  {
  }

  // ---------------------------------------------------------------------------
  // Evaluation
  // ---------------------------------------------------------------------------

  /** The `findMany` filter: same type, same entity, enabled. */
  predicate Matches(c: AlertConfiguration, reading: Reading) {
    c.alertType == reading.alertType && c.entityId == reading.entityId && c.enabled
  }

  /** The configuration is returned by the query and its threshold test holds. */
  predicate Trips(c: AlertConfiguration, reading: Reading) {
    Matches(c, reading) && CheckThreshold(reading.value, c.operator, c.thresholdValue)
  }

  /** The configuration trips and the store holds no open alert for it. */
  predicate Opens(c: AlertConfiguration, alerts: seq<Alert>, reading: Reading) {
    Trips(c, reading) && !HasOpenAlert(alerts, c.id)
  }

  /**
   * The row `alert.create` inserts for a configuration that tripped: it copies the
   * configuration's id, type and entity, and starts unresolved and unacknowledged.
   */
  function NewAlert(id: nat, c: AlertConfiguration, reading: Reading, now: int, fmt: real -> string): Alert {
    Alert(
      id := id,
      configurationId := Some(c.id),
      alertType := c.alertType,
      entityId := c.entityId,
      severity := CalculateSeverity(reading.value, c.thresholdValue),
      message := AlertMessage(reading.alertType, reading.value, c.operator, c.thresholdValue, fmt),
      triggeredAt := now,
      resolvedAt := None,
      acknowledged := false,
      acknowledgedBy := None,
      acknowledgedAt := None)
  }

  function AlertsOf(out: seq<Triggered>): seq<Alert> {
    seq(|out|, i requires 0 <= i < |out| => out[i].alert)
  }

  function ConfigsOf(out: seq<Triggered>): seq<AlertConfiguration> {
    seq(|out|, i requires 0 <= i < |out| => out[i].config)
  }

  /** The store after the alerts of `out` have been inserted. */
  function After(store: AlertStore, out: seq<Triggered>): AlertStore {
    AlertStore(store.alerts + AlertsOf(out), store.nextId + |out|)
  }

  lemma AfterAfter(store: AlertStore, a: seq<Triggered>, b: seq<Triggered>)
    ensures After(After(store, a), b) == After(store, a + b)
  {
    assert AlertsOf(a + b) == AlertsOf(a) + AlertsOf(b);
  }

  /** `a` lists some of the elements of `b`, in the order `b` lists them. */
  ghost predicate Subsequence<T>(a: seq<T>, b: seq<T>)
    decreases |b|
  {
    a == [] || (b != [] && (Subsequence(a, b[1..]) || (a[0] == b[0] && Subsequence(a[1..], b[1..]))))
  }

  /** One turn of the loop, for configuration `c`: the pair it produces, if any. */
  function Step(c: AlertConfiguration, store: AlertStore, reading: Reading, now: int, fmt: real -> string)
    : seq<Triggered>
  {
    if Opens(c, store.alerts, reading) then [Triggered(NewAlert(store.nextId, c, reading, now, fmt), c)]
    else []
  }

  /**
   * The loop of `evaluateThresholds` over the configurations `cs`, skipping those
   * the query would not return; each turn sees the alerts inserted by earlier turns.
   */
  function EvaluateEach(cs: seq<AlertConfiguration>, store: AlertStore, reading: Reading, now: int, fmt: real -> string)
    : seq<Triggered>
    decreases |cs|
  {
    if cs == [] then []
    else
      var first := Step(cs[0], store, reading, now, fmt);
      first + EvaluateEach(cs[1..], After(store, first), reading, now, fmt)
  }

  lemma HasOpenAlertGrows(alerts: seq<Alert>, extra: seq<Alert>, configId: string)
    requires HasOpenAlert(alerts, configId)
    ensures HasOpenAlert(alerts + extra, configId)
  {
    var k :| 0 <= k < |alerts| && IsOpenFor(alerts[k], configId);
    assert (alerts + extra)[k] == alerts[k];
  }

  /**
   * Each pair of `out` carries a configuration of `cs` that tripped and had no
   * open alert in `store`, and the alert built for it with the next fresh id.
   */
  ghost predicate PairsFrom(out: seq<Triggered>, cs: seq<AlertConfiguration>, store: AlertStore, reading: Reading, now: int, fmt: real -> string) {
    forall i :: 0 <= i < |out| ==>
      && out[i].config in cs
      && Trips(out[i].config, reading)
      && !HasOpenAlert(store.alerts, out[i].config.id)
      && out[i].alert == NewAlert(store.nextId + i, out[i].config, reading, now, fmt)
  }

  /** Every pair the loop produces is one of a tripped configuration without an open alert. */
  lemma {:induction false} EvaluatePairs(
    cs: seq<AlertConfiguration>, store: AlertStore, reading: Reading, now: int, fmt: real -> string)
    ensures PairsFrom(EvaluateEach(cs, store, reading, now, fmt), cs, store, reading, now, fmt)
    decreases |cs|
  {
    if cs != [] {
      var first := Step(cs[0], store, reading, now, fmt);
      var s1 := After(store, first);
      EvaluatePairs(cs[1..], s1, reading, now, fmt);
      var rest := EvaluateEach(cs[1..], s1, reading, now, fmt);
      var out := first + rest;
      forall i | 0 <= i < |out|
        ensures out[i].config in cs
        ensures Trips(out[i].config, reading)
        ensures !HasOpenAlert(store.alerts, out[i].config.id)
        ensures out[i].alert == NewAlert(store.nextId + i, out[i].config, reading, now, fmt)
      {
        if i < |first| {
          assert Opens(cs[0], store.alerts, reading);
          assert out[i] == first[0] && first[0].config == cs[0];
        } else {
          var j := i - |first|;
          assert out[i] == rest[j];
          assert rest[j].config in cs[1..] && Trips(rest[j].config, reading);
          assert !HasOpenAlert(s1.alerts, rest[j].config.id);
          if HasOpenAlert(store.alerts, rest[j].config.id) {
            HasOpenAlertGrows(store.alerts, AlertsOf(first), rest[j].config.id);
          }
        }
      }
    }
  }

  /**
   * `evaluateThresholds`: the alert store after the call and the (alert,
   * configuration) pairs just opened. Earlier alerts are kept as they were, and
   * each new alert is open, belongs to a matching enabled configuration whose
   * test held and which had no open alert, and copies its type and entity.
   */
  function EvaluateThresholds(configs: seq<AlertConfiguration>, store: AlertStore, reading: Reading, now: int, fmt: real -> string)
    : (r: (AlertStore, seq<Triggered>))
    ensures |r.0.alerts| == |store.alerts| + |r.1| && r.0.nextId == store.nextId + |r.1|
    ensures r.0.alerts[..|store.alerts|] == store.alerts
    ensures forall i :: 0 <= i < |r.1| ==>
      && r.1[i].config in configs
      && Matches(r.1[i].config, reading)
      && CheckThreshold(reading.value, r.1[i].config.operator, r.1[i].config.thresholdValue)
      && !HasOpenAlert(store.alerts, r.1[i].config.id)
      && r.0.alerts[|store.alerts| + i] == r.1[i].alert
      && r.1[i].alert.id == store.nextId + i
      && IsOpenFor(r.1[i].alert, r.1[i].config.id)
      && !r.1[i].alert.acknowledged
      && r.1[i].alert.alertType == r.1[i].config.alertType
      && r.1[i].alert.entityId == r.1[i].config.entityId
      && r.1[i].alert.severity == CalculateSeverity(reading.value, r.1[i].config.thresholdValue)
  {
    var out := EvaluateEach(configs, store, reading, now, fmt);
    EvaluatePairs(configs, store, reading, now, fmt);
    var s := After(store, out);
    assert s.alerts[..|store.alerts|] == store.alerts;
    assert forall i :: 0 <= i < |out| ==> s.alerts[|store.alerts| + i] == out[i].alert;
    (s, out)
  }

  /** The pairs come back in configuration order. */
  lemma {:induction false} EvaluateKeepsConfigurationOrder(
    cs: seq<AlertConfiguration>, store: AlertStore, reading: Reading, now: int, fmt: real -> string)
    ensures Subsequence(ConfigsOf(EvaluateEach(cs, store, reading, now, fmt)), cs)
    decreases |cs|
  {
    if cs != [] {
      var first := Step(cs[0], store, reading, now, fmt);
      EvaluateKeepsConfigurationOrder(cs[1..], After(store, first), reading, now, fmt);
      var rest := EvaluateEach(cs[1..], After(store, first), reading, now, fmt);
      var out := first + rest;
      if first != [] {
        assert ConfigsOf(out)[0] == cs[0];
        assert ConfigsOf(out)[1..] == ConfigsOf(rest);
      } else {
        assert ConfigsOf(out) == ConfigsOf(rest);
      }
    }
  }

  /** Appending an open alert for a configuration that had none keeps the invariant. */
  lemma AppendOpenKeepsAtMostOne(alerts: seq<Alert>, a: Alert, configId: string)
    requires AtMostOneOpen(alerts)
    requires IsOpenFor(a, configId) && !HasOpenAlert(alerts, configId)
    ensures AtMostOneOpen(alerts + [a])
  {
    var s := alerts + [a];
    forall i, j |
      0 <= i < |s| && 0 <= j < |s| && i != j
      && s[i].configurationId.Some? && IsOpenFor(s[i], s[i].configurationId.value)
      ensures !IsOpenFor(s[j], s[i].configurationId.value)
    {
      if i == |alerts| {
        assert j < |alerts| && s[j] == alerts[j];
      } else if j == |alerts| {
        assert s[i] == alerts[i];
      } else {
        assert s[i] == alerts[i] && s[j] == alerts[j];
      }
    }
  }

  /** Evaluation preserves "at most one unresolved alert per configuration". */
  lemma {:induction false} EvaluatePreservesAtMostOneOpen(
    cs: seq<AlertConfiguration>, store: AlertStore, reading: Reading, now: int, fmt: real -> string)
    requires AtMostOneOpen(store.alerts)
    ensures AtMostOneOpen(After(store, EvaluateEach(cs, store, reading, now, fmt)).alerts)
    decreases |cs|
  {
    if cs != [] {
      var first := Step(cs[0], store, reading, now, fmt);
      if first != [] {
        AppendOpenKeepsAtMostOne(store.alerts, first[0].alert, cs[0].id);
        assert After(store, first).alerts == store.alerts + [first[0].alert];
      }
      EvaluatePreservesAtMostOneOpen(cs[1..], After(store, first), reading, now, fmt);
      AfterAfter(store, first, EvaluateEach(cs[1..], After(store, first), reading, now, fmt));
    }
  }

  /** Evaluation hands out fresh, distinct alert ids. */
  lemma {:induction false} EvaluatePreservesValidStore(
    cs: seq<AlertConfiguration>, store: AlertStore, reading: Reading, now: int, fmt: real -> string)
    requires ValidStore(store)
    ensures ValidStore(After(store, EvaluateEach(cs, store, reading, now, fmt)))
    decreases |cs|
  {
    if cs != [] {
      var first := Step(cs[0], store, reading, now, fmt);
      assert ValidStore(After(store, first));
      EvaluatePreservesValidStore(cs[1..], After(store, first), reading, now, fmt);
      AfterAfter(store, first, EvaluateEach(cs[1..], After(store, first), reading, now, fmt));
    }
  }

  /** After evaluation, every configuration that tripped has an open alert. */
  lemma {:induction false} EvaluateLeavesTrippedOpen(
    cs: seq<AlertConfiguration>, store: AlertStore, reading: Reading, now: int, fmt: real -> string)
    ensures forall c :: c in cs && Trips(c, reading) ==>
      HasOpenAlert(After(store, EvaluateEach(cs, store, reading, now, fmt)).alerts, c.id)
    decreases |cs|
  {
    if cs != [] {
      var c0 := cs[0];
      var first := Step(c0, store, reading, now, fmt);
      var s1 := After(store, first);
      EvaluateLeavesTrippedOpen(cs[1..], s1, reading, now, fmt);
      var rest := EvaluateEach(cs[1..], s1, reading, now, fmt);
      AfterAfter(store, first, rest);
      if Trips(c0, reading) {
        if first != [] {
          assert s1.alerts[|store.alerts|] == first[0].alert;
          assert IsOpenFor(s1.alerts[|store.alerts|], c0.id);
        } else {
          HasOpenAlertGrows(store.alerts, [], c0.id);
          assert store.alerts + [] == s1.alerts;
        }
        assert HasOpenAlert(s1.alerts, c0.id);
        HasOpenAlertGrows(s1.alerts, AlertsOf(rest), c0.id);
      }
      forall c | c in cs && Trips(c, reading)
        ensures HasOpenAlert(After(s1, rest).alerts, c.id)
      {
        if c != c0 {
          assert c in cs[1..];
        }
      }
    }
  }

  /** When every tripping configuration already has an open alert, evaluation opens nothing. */
  lemma {:induction false} EvaluateOpensNothingWhenAllOpen(
    cs: seq<AlertConfiguration>, store: AlertStore, reading: Reading, now: int, fmt: real -> string)
    requires forall c :: c in cs && Trips(c, reading) ==> HasOpenAlert(store.alerts, c.id)
    ensures EvaluateEach(cs, store, reading, now, fmt) == []
    decreases |cs|
  {
    if cs != [] {
      assert cs[0] in cs;
      assert forall c :: c in cs[1..] ==> c in cs;
      assert After(store, []) == store;
      EvaluateOpensNothingWhenAllOpen(cs[1..], store, reading, now, fmt);
    }
  }

  /** Re-running the evaluation with the same reading opens no further alert and changes nothing. */
  lemma EvaluateIsIdempotent(
    configs: seq<AlertConfiguration>, store: AlertStore, reading: Reading, now1: int, now2: int, fmt: real -> string)
    ensures var s1 := EvaluateThresholds(configs, store, reading, now1, fmt).0;
      EvaluateThresholds(configs, s1, reading, now2, fmt) == (s1, [])
  {
    EvaluateLeavesTrippedOpen(configs, store, reading, now1, fmt);
    var s1 := EvaluateThresholds(configs, store, reading, now1, fmt).0;
    EvaluateOpensNothingWhenAllOpen(configs, s1, reading, now2, fmt);
    assert After(s1, []) == s1;
  }

  /** Opening an alert for one configuration does not change whether another has one open. */
  lemma StepKeepsOthersOpenness(c: AlertConfiguration, store: AlertStore, reading: Reading, now: int, fmt: real -> string, id: string)
    requires id != c.id
    ensures HasOpenAlert(After(store, Step(c, store, reading, now, fmt)).alerts, id) <==> HasOpenAlert(store.alerts, id)
  {
    var first := Step(c, store, reading, now, fmt);
    var s' := After(store, first);
    if HasOpenAlert(s'.alerts, id) {
      var j :| 0 <= j < |s'.alerts| && IsOpenFor(s'.alerts[j], id);
      if j < |store.alerts| {
        assert s'.alerts[j] == store.alerts[j];
      } else {
        assert false;
      }
    }
    if HasOpenAlert(store.alerts, id) {
      HasOpenAlertGrows(store.alerts, AlertsOf(first), id);
    }
  }

  /**
   * With distinct configuration ids, a configuration opens an alert exactly when it
   * trips and had no open alert before the call.
   */
  lemma {:induction false} EvaluateOpensExactly(
    cs: seq<AlertConfiguration>, store: AlertStore, reading: Reading, now: int, fmt: real -> string,
    c: AlertConfiguration)
    requires UniqueConfigIds(cs)
    requires c in cs
    ensures c in ConfigsOf(EvaluateEach(cs, store, reading, now, fmt)) <==> Opens(c, store.alerts, reading)
    decreases |cs|
  {
    var c0 := cs[0];
    var first := Step(c0, store, reading, now, fmt);
    var s1 := After(store, first);
    var rest := EvaluateEach(cs[1..], s1, reading, now, fmt);
    assert ConfigsOf(first + rest) == ConfigsOf(first) + ConfigsOf(rest);
    EvaluatePairs(cs[1..], s1, reading, now, fmt);
    if c == c0 {
      if c0 in ConfigsOf(rest) {
        // A later pair carrying c0 would need c0 in cs[1..], against distinct ids.
        assert false;
      }
      if Opens(c0, store.alerts, reading) {
        assert ConfigsOf(first) == [c0];
      } else {
        assert ConfigsOf(first) == [];
      }
    } else {
      assert c in cs[1..];
      var k :| 0 <= k < |cs[1..]| && cs[1..][k] == c;
      assert cs[k + 1] == c;
      assert UniqueConfigIds(cs[1..]) by {
        forall i, j | 0 <= i < j < |cs[1..]| ensures cs[1..][i].id != cs[1..][j].id {
          assert cs[1..][i] == cs[i + 1] && cs[1..][j] == cs[j + 1];
        }
      }
      assert c.id != c0.id;
      assert c !in ConfigsOf(first);
      EvaluateOpensExactly(cs[1..], s1, reading, now, fmt, c);
      StepKeepsOthersOpenness(c0, store, reading, now, fmt, c.id);
    }
  }

  /** An open alert on a configuration suppresses any further alert for it, whatever the reading. */
  lemma OpenAlertSuppresses(
    configs: seq<AlertConfiguration>, store: AlertStore, reading: Reading, now: int, fmt: real -> string,
    configId: string)
    requires HasOpenAlert(store.alerts, configId)
    ensures forall p :: p in EvaluateThresholds(configs, store, reading, now, fmt).1 ==> p.config.id != configId
  {
  }

  // ---------------------------------------------------------------------------
  // Acknowledgement
  // ---------------------------------------------------------------------------

  /** The position of the alert with id `alertId`, if there is one. */
  function FindAlert(alerts: seq<Alert>, alertId: nat): (r: Option<nat>)
    ensures r.Some? ==> r.value < |alerts| && alerts[r.value].id == alertId
    ensures r.None? ==> forall i :: 0 <= i < |alerts| ==> alerts[i].id != alertId
  {
    if alerts == [] then None
    else if alerts[0].id == alertId then Some(0)
    else match FindAlert(alerts[1..], alertId)
      case Some(k) => Some(k + 1)
      case None => None
  }

  /**
   * `acknowledgeAlert`: NotFound for an unknown id; otherwise the alert is marked
   * acknowledged by `userId` at `now`, and nothing else in the store changes.
   */
  function AcknowledgeAlert(store: AlertStore, alertId: nat, userId: string, now: int)
    : (r: Result<(AlertStore, Alert), HttpError>)
    ensures r.Err? <==> forall i :: 0 <= i < |store.alerts| ==> store.alerts[i].id != alertId
    ensures r.Err? ==> r.error == NotFound("Alert not found")
    ensures r.Ok? ==>
      var (s, a) := r.value;
      && s.nextId == store.nextId
      && |s.alerts| == |store.alerts|
      && a in s.alerts
      && a.id == alertId && a.acknowledged && a.acknowledgedBy == Some(userId) && a.acknowledgedAt == Some(now)
      && forall i :: 0 <= i < |store.alerts| ==>
           var before, after := store.alerts[i], s.alerts[i];
           && after.id == before.id
           && after.configurationId == before.configurationId
           && after.resolvedAt == before.resolvedAt
           && after.alertType == before.alertType
           && after.entityId == before.entityId
           && after.severity == before.severity
           && after.message == before.message
           && after.triggeredAt == before.triggeredAt
           && (before.id != alertId ==> after == before)
  {
    match FindAlert(store.alerts, alertId)
    case None => Err(NotFound("Alert not found"))
    case Some(k) =>
      var a := store.alerts[k].(acknowledged := true, acknowledgedAt := Some(now), acknowledgedBy := Some(userId));
      var alerts := seq(|store.alerts|, i requires 0 <= i < |store.alerts| =>
        if store.alerts[i].id == alertId then store.alerts[i].(acknowledged := true, acknowledgedAt := Some(now), acknowledgedBy := Some(userId))
        else store.alerts[i]);
      assert alerts[k] == a;
      Ok((AlertStore(alerts, store.nextId), a))
  }

  /** Acknowledging an alert never touches resolution, so the deduplication invariant survives it. */
  lemma AcknowledgePreservesAtMostOneOpen(store: AlertStore, alertId: nat, userId: string, now: int)
    requires AtMostOneOpen(store.alerts)
    requires AcknowledgeAlert(store, alertId, userId, now).Ok?
    ensures AtMostOneOpen(AcknowledgeAlert(store, alertId, userId, now).value.0.alerts)
  {
    var s := AcknowledgeAlert(store, alertId, userId, now).value.0.alerts;
    forall i, j |
      0 <= i < |s| && 0 <= j < |s| && i != j
      && s[i].configurationId.Some? && IsOpenFor(s[i], s[i].configurationId.value)
      ensures !IsOpenFor(s[j], s[i].configurationId.value)
    {
      assert IsOpenFor(store.alerts[i], store.alerts[i].configurationId.value);
    }
  }

  // ---------------------------------------------------------------------------
  // Configuration ownership
  // ---------------------------------------------------------------------------

  /** The position of the configuration with id `id`, if there is one. */
  function FindConfig(configs: seq<AlertConfiguration>, id: string): (r: Option<nat>)
    ensures r.Some? ==> r.value < |configs| && configs[r.value].id == id
    ensures r.None? <==> forall i :: 0 <= i < |configs| ==> configs[i].id != id
  {
    if configs == [] then None
    else if configs[0].id == id then Some(0)
    else match FindConfig(configs[1..], id)
      case Some(k) => Some(k + 1)
      case None =>
        assert forall i :: 1 <= i < |configs| ==> configs[i] == configs[1..][i - 1];
        None
  }

  /** `createConfiguration`: the body's fields, owned by `userId`, enabled unless the body says otherwise. */
  function CreateConfiguration(configs: seq<AlertConfiguration>, id: string, userId: string, dto: CreateAlertConfigDto)
    : (r: (seq<AlertConfiguration>, AlertConfiguration))
    ensures r.0 == configs + [r.1]
    ensures r.1.id == id && r.1.userId == userId
    ensures r.1.alertType == dto.alertType && r.1.entityId == dto.entityId
    ensures r.1.operator == dto.operator && r.1.thresholdValue == dto.thresholdValue
    ensures r.1.channels == dto.channels
    ensures dto.enabled.None? ==> r.1.enabled
    ensures dto.enabled.Some? ==> r.1.enabled == dto.enabled.value
  {
    var c := AlertConfiguration(id, userId, dto.alertType, dto.entityId, dto.operator,
                                dto.thresholdValue, dto.channels, dto.enabled.GetOr(true));
    (configs + [c], c)
  }

  /** The row after `update({ data: dto })`: present fields overwrite, absent ones stay. */
  function ApplyUpdate(c: AlertConfiguration, dto: UpdateAlertConfigDto): AlertConfiguration {
    c.(operator := dto.operator.GetOr(c.operator),
       thresholdValue := dto.thresholdValue.GetOr(c.thresholdValue),
       channels := dto.channels.GetOr(c.channels),
       enabled := dto.enabled.GetOr(c.enabled))
  }

  /**
   * `updateConfiguration`: NotFound when the id is unknown or belongs to another
   * user (with different messages); otherwise only that row changes, and only in
   * the fields the update body carries, so its id, owner, type and entity stay.
   */
  function UpdateConfiguration(configs: seq<AlertConfiguration>, id: string, userId: string, dto: UpdateAlertConfigDto)
    : (r: Result<(seq<AlertConfiguration>, AlertConfiguration), HttpError>)
    ensures (forall i :: 0 <= i < |configs| ==> configs[i].id != id) ==>
      r == Err(NotFound("Alert configuration not found"))
    ensures r.Ok? ==>
      exists k :: 0 <= k < |configs| && configs[k].id == id && configs[k].userId == userId
        && r.value.0 == configs[k := r.value.1]
    ensures r.Ok? ==>
      var c := r.value.1;
      && c.id == id && c.userId == userId
      && (dto.operator.Some? ==> c.operator == dto.operator.value)
      && (dto.thresholdValue.Some? ==> c.thresholdValue == dto.thresholdValue.value)
      && (dto.channels.Some? ==> c.channels == dto.channels.value)
      && (dto.enabled.Some? ==> c.enabled == dto.enabled.value)
    ensures r.Err? && r.error != NotFound("Alert configuration not found") ==>
      r.error == NotFound("You can only update your own configurations")
      && exists k :: 0 <= k < |configs| && configs[k].id == id && configs[k].userId != userId
    ensures r.Ok? <==> FindConfig(configs, id).Some? && configs[FindConfig(configs, id).value].userId == userId
    ensures FindConfig(configs, id).Some? && configs[FindConfig(configs, id).value].userId != userId ==>
      r == Err(NotFound("You can only update your own configurations"))
  {
    match FindConfig(configs, id)
    case None => Err(NotFound("Alert configuration not found"))
    case Some(k) =>
      if configs[k].userId != userId then Err(NotFound("You can only update your own configurations"))
      else
        var c := ApplyUpdate(configs[k], dto);
        Ok((configs[k := c], c))
  }

  /** An update keeps the configuration's identity: id, owner, type and entity. */
  lemma UpdateKeepsIdentity(configs: seq<AlertConfiguration>, id: string, userId: string, dto: UpdateAlertConfigDto)
    requires UpdateConfiguration(configs, id, userId, dto).Ok?
    ensures var (after, c) := UpdateConfiguration(configs, id, userId, dto).value;
      exists k :: 0 <= k < |configs|
        && c.id == configs[k].id && c.userId == configs[k].userId
        && c.alertType == configs[k].alertType && c.entityId == configs[k].entityId
        && |after| == |configs|
        && forall i :: 0 <= i < |configs| && i != k ==> after[i] == configs[i]
  {
  }

  /** The sequence without its `k`-th element: every other element stays, and nothing else appears. */
  function RemoveAt<T>(s: seq<T>, k: nat): (r: seq<T>)
    requires k < |s|
    ensures |r| == |s| - 1
    ensures forall i :: 0 <= i < |s| && i != k ==> s[i] in r
    ensures forall x :: x in r ==> exists j :: 0 <= j < |s| && j != k && s[j] == x
  {
    var r := s[..k] + s[k + 1..];
    assert forall i :: 0 <= i < |s| && i != k ==> s[i] in r by {
      forall i | 0 <= i < |s| && i != k ensures s[i] in r {
        if i < k { assert r[i] == s[i]; } else { assert r[i - 1] == s[i]; }
      }
    }
    assert forall x :: x in r ==> exists j :: 0 <= j < |s| && j != k && s[j] == x by {
      forall x | x in r ensures exists j :: 0 <= j < |s| && j != k && s[j] == x {
        var j :| 0 <= j < |r| && r[j] == x;
        if j < k { assert s[j] == x; } else { assert s[j + 1] == x; }
      }
    }
    r
  }

  /**
   * `deleteConfiguration`: NotFound when the id is unknown or belongs to another
   * user; otherwise exactly that row is removed and the success message returned.
   */
  function DeleteConfiguration(configs: seq<AlertConfiguration>, id: string, userId: string)
    : (r: Result<(seq<AlertConfiguration>, string), HttpError>)
    ensures (forall i :: 0 <= i < |configs| ==> configs[i].id != id) ==>
      r == Err(NotFound("Alert configuration not found"))
    ensures r.Err? && r.error != NotFound("Alert configuration not found") ==>
      r.error == NotFound("You can only delete your own configurations")
      && exists k :: 0 <= k < |configs| && configs[k].id == id && configs[k].userId != userId
    ensures r.Ok? ==>
      && r.value.1 == "Configuration deleted successfully"
      && |r.value.0| == |configs| - 1
      && (exists k :: 0 <= k < |configs| && configs[k].id == id && configs[k].userId == userId)
      && (forall c :: c in r.value.0 ==> c in configs)
      && (forall c :: c in configs && c.id != id ==> c in r.value.0)
    ensures r.Ok? && UniqueConfigIds(configs) ==> forall c :: c in r.value.0 ==> c.id != id
    ensures r.Ok? <==> FindConfig(configs, id).Some? && configs[FindConfig(configs, id).value].userId == userId
    ensures FindConfig(configs, id).Some? && configs[FindConfig(configs, id).value].userId != userId ==>
      r == Err(NotFound("You can only delete your own configurations"))
  {
    match FindConfig(configs, id)
    case None => Err(NotFound("Alert configuration not found"))
    case Some(k) =>
      if configs[k].userId != userId then Err(NotFound("You can only delete your own configurations"))
      else
        var after := RemoveAt(configs, k);
        assert UniqueConfigIds(configs) ==> forall c :: c in after ==> c.id != id by {
          if UniqueConfigIds(configs) {
            forall c | c in after ensures c.id != id {
              var j :| 0 <= j < |configs| && j != k && configs[j] == c;
            }
          }
        }
        Ok((after, "Configuration deleted successfully"))
  }

  /** With unique ids, the lookup finds exactly the row that carries the id. */
  lemma FindConfigUnique(configs: seq<AlertConfiguration>, k: nat)
    requires UniqueConfigIds(configs) && k < |configs|
    ensures FindConfig(configs, configs[k].id) == Some(k)
  {
    var j := FindConfig(configs, configs[k].id);
    assert j.Some? && configs[j.value].id == configs[k].id;
  }

  /**
   * The owner's update of a configuration succeeds; afterwards the id still
   * finds that row, which now holds the updated fields, and ids stay unique.
   */
  lemma OwnerUpdateSucceeds(configs: seq<AlertConfiguration>, k: nat, dto: UpdateAlertConfigDto)
    requires UniqueConfigIds(configs) && k < |configs|
    ensures var r := UpdateConfiguration(configs, configs[k].id, configs[k].userId, dto);
      && r.Ok?
      && r.value.1 == ApplyUpdate(configs[k], dto)
      && UniqueConfigIds(r.value.0)
      && FindConfig(r.value.0, configs[k].id) == Some(k)
      && r.value.0[k] == ApplyUpdate(configs[k], dto)
  {
    FindConfigUnique(configs, k);
    var after := configs[k := ApplyUpdate(configs[k], dto)];
    assert forall i :: 0 <= i < |after| ==> after[i].id == configs[i].id;
    FindConfigUnique(after, k);
  }

  /** Another user's configuration is refused by both update and delete, each with its own message. */
  lemma OtherUsersConfigurationRefused(configs: seq<AlertConfiguration>, k: nat, userId: string, dto: UpdateAlertConfigDto)
    requires UniqueConfigIds(configs) && k < |configs| && configs[k].userId != userId
    ensures UpdateConfiguration(configs, configs[k].id, userId, dto) == Err(NotFound("You can only update your own configurations"))
    ensures DeleteConfiguration(configs, configs[k].id, userId) == Err(NotFound("You can only delete your own configurations"))
  {
    FindConfigUnique(configs, k);
  }

  /**
   * The owner's delete succeeds: one row fewer, no row with that id left, every
   * other configuration kept, and the ids still unique.
   */
  lemma OwnerDeleteSucceeds(configs: seq<AlertConfiguration>, k: nat)
    requires UniqueConfigIds(configs) && k < |configs|
    ensures var r := DeleteConfiguration(configs, configs[k].id, configs[k].userId);
      && r.Ok?
      && |r.value.0| == |configs| - 1
      && (forall c :: c in r.value.0 ==> c.id != configs[k].id)
      && (forall i :: 0 <= i < |configs| && i != k ==> configs[i] in r.value.0)
      && FindConfig(r.value.0, configs[k].id).None?
  {
    FindConfigUnique(configs, k);
    var after := DeleteConfiguration(configs, configs[k].id, configs[k].userId).value.0;
    assert forall i :: 0 <= i < |after| ==> after[i] in after;
  }
}

=== FILE: api_client.dfy ===
/**
 * The outbound API client: the cache of clients by base URL, the retry
 * decision and exponential back-off of the response interceptor, and the
 * classification of a final failure into an HTTP status.
 *
 * Only the decisions are modelled: the interceptor's re-issue of the request,
 * the `sleep`, and the axios machinery are not. A config property written as
 * `None` is one the caller did not set.
 */
module ApiClient {
  import opened Wrappers

  datatype RetryConfig = RetryConfig(maxRetries: int, retryDelay: int, retryableStatusCodes: seq<int>)

  /** The policy used when `createClient` was given no retry config. */
  const DefaultRetry: RetryConfig := RetryConfig(3, 1000, [408, 429, 500, 502, 503, 504])

  /** The default request timeout in milliseconds. */
  const DefaultTimeout: int := 30000

  /** The options `createClient` may be given. */
  datatype ClientConfig = ClientConfig(baseURL: Option<string>, timeout: Option<int>, retry: Option<RetryConfig>)

  /**
   * A created client: where it points, its timeout, the retry policy its
   * interceptor captured, and whether that policy was also spread into the
   * client's request defaults under the key `retry` (it is when the caller
   * passed one), where it shares the key of the interceptor's retry counter.
   */
  datatype Client = Client(baseURL: string, timeout: int, retry: RetryConfig, policyInRequests: bool)

  type ClientCache = map<string, Client>

  // ---------------------------------------------------------------------------
  // Client cache
  // ---------------------------------------------------------------------------

  /** The client `axios.create` builds: the defaults, overridden by the options set. */
  function NewClient(baseURL: string, config: Option<ClientConfig>): (c: Client)
    ensures config.None? ==> c == Client(baseURL, DefaultTimeout, DefaultRetry, false)
    ensures config.Some? ==>
      && c.baseURL == config.value.baseURL.GetOr(baseURL)
      && c.timeout == config.value.timeout.GetOr(DefaultTimeout)
      && c.retry == config.value.retry.GetOr(DefaultRetry)
    ensures c.policyInRequests <==> config.Some? && config.value.retry.Some?
  {
    match config
    case None => Client(baseURL, DefaultTimeout, DefaultRetry, false)
    case Some(cfg) =>
      Client(cfg.baseURL.GetOr(baseURL), cfg.timeout.GetOr(DefaultTimeout), cfg.retry.GetOr(DefaultRetry), cfg.retry.Some?)
  }

  /**
   * `createClient`: the cached client for `baseURL` when there is one, and the
   * cache unchanged; otherwise a new client, stored under `baseURL`.
   */
  function CreateClient(cache: ClientCache, baseURL: string, config: Option<ClientConfig>): (r: (ClientCache, Client))
    ensures baseURL in cache ==> r == (cache, cache[baseURL])
    ensures baseURL !in cache ==> r.0 == cache[baseURL := r.1] && r.1 == NewClient(baseURL, config)
    ensures r.0.Keys == cache.Keys + {baseURL}
  {
    if baseURL in cache then (cache, cache[baseURL])
    else
      var c := NewClient(baseURL, config);
      (cache[baseURL := c], c)
  }

  /**
   * A repeat call returns the same client whatever options it passes, so the
   * first call's retry policy and timeout stay in force; the cache gains at most
   * one key.
   */
  lemma CreateClientCached(cache: ClientCache, baseURL: string, config1: Option<ClientConfig>, config2: Option<ClientConfig>)
    ensures var (cache1, c1) := CreateClient(cache, baseURL, config1);
      && CreateClient(cache1, baseURL, config2) == (cache1, c1)
      && |cache1.Keys - cache.Keys| <= 1
  {
    var (cache1, c1) := CreateClient(cache, baseURL, config1);
    assert cache1.Keys - cache.Keys <= {baseURL};
  }

  /**
   * `get` / `post`: the client for the request's base URL, or for the empty base
   * URL when none is set, created without options.
   */
  function RequestClient(cache: ClientCache, baseURL: Option<string>): (r: (ClientCache, Client))
    ensures var key := if baseURL.Some? && baseURL.value != "" then baseURL.value else "";
      && r.0.Keys == cache.Keys + {key}
      && (key !in cache ==> r.1 == Client(key, DefaultTimeout, DefaultRetry, false))
      && (key in cache ==> r.1 == cache[key])
  {
    CreateClient(cache, if baseURL.Some? && baseURL.value != "" then baseURL.value else "", None)
  }

  // ---------------------------------------------------------------------------
  // Failure classification
  // ---------------------------------------------------------------------------

  /**
   * What the interceptor sees of a failed request: the retry counter stored on
   * the request config (`None` when the error carries no config; an unset
   * counter reads as 0), the status of the response if one arrived, whether a
   * request went out, and the error message.
   */
  datatype RequestError = RequestError(
    requestConfig: Option<nat>,
    responseStatus: Option<int>,
    requestSent: bool,
    message: string)

  /** The exception a failure is turned into. */
  datatype HttpFailure = HttpFailure(status: int, message: string)

  const ServiceUnavailable: int := 503
  const InternalServerError: int := 500

  /**
   * `handleError`: a response's own status and the error message; a request that
   * got no response is 503 with a fixed message; anything else is 500. So a
   * status below 500 (a success or a client error) is always the upstream's own,
   * and a failure without a response is always a server error.
   */
  function HandleError(e: RequestError): (r: HttpFailure)
    ensures e.responseStatus.Some? ==> r == HttpFailure(e.responseStatus.value, e.message)
    ensures e.responseStatus.None? && e.requestSent ==> r == HttpFailure(ServiceUnavailable, "No response received from API")
    ensures e.responseStatus.None? && !e.requestSent ==> r == HttpFailure(InternalServerError, e.message)
    ensures r.status < 500 ==> e.responseStatus == Some(r.status)
    ensures e.responseStatus.None? ==> 500 <= r.status < 600
  {
    if e.responseStatus.Some? then HttpFailure(e.responseStatus.value, e.message)
    else if e.requestSent then HttpFailure(ServiceUnavailable, "No response received from API")
    else HttpFailure(InternalServerError, e.message)
  }

  // ---------------------------------------------------------------------------
  // Retry decision
  // ---------------------------------------------------------------------------

  /** 2 to the power `k`. */
  function Pow2(k: nat): (p: nat)
    ensures p >= 1
  {
    if k == 0 then 1 else 2 * Pow2(k - 1)
  }

  /** `error.response?.status || 0`: a missing response, like a status of 0, reads as 0. */
  function StatusOf(e: RequestError): int {
    if e.responseStatus.Some? then e.responseStatus.value else 0
  }

  /** The interceptor's answer: re-issue after `delay` with the counter at `count`, or give up. */
  datatype Decision = Retry(count: nat, delay: int) | Reject(failure: HttpFailure)

  /**
   * The retry decision as intended: an error without a request config cannot be
   * re-issued and is classified. Otherwise the request is retried iff its
   * counter is below the maximum of the client's policy and its status is
   * retryable; the k-th retry waits `retryDelay * 2^(k-1)`.
   */
  function OnError(policy: RetryConfig, e: RequestError): (d: Decision)
    ensures e.requestConfig.None? ==> d == Reject(HandleError(e))
    ensures e.requestConfig.Some? ==>
      (d.Retry? <==> e.requestConfig.value < policy.maxRetries && StatusOf(e) in policy.retryableStatusCodes)
    ensures d.Retry? ==> d.count == e.requestConfig.value + 1 && d.delay == policy.retryDelay * Pow2(d.count - 1)
    ensures d.Reject? ==> d.failure == HandleError(e)
  {
    match e.requestConfig
    case None => Reject(HandleError(e))
    case Some(count) =>
      if count < policy.maxRetries && StatusOf(e) in policy.retryableStatusCodes then
        Retry(count + 1, policy.retryDelay * Pow2(count))
      else Reject(HandleError(e))
  }

  /** The interceptor as written can also end by throwing a TypeError. */
  datatype WrittenOutcome = Decided(decision: Decision) | TypeErrorThrown

  /**
   * The retry decision as written, for a failed request of `client`. When the
   * error carries no request config, the guard meant to reset the counter
   * assigns a property of `undefined`, which throws, so the failure escapes
   * unclassified. When the client was given a policy, the request config's
   * `retry` key holds that policy object rather than a counter: it is truthy, so
   * the counter is never reset, and an object compared with a number is false,
   * so the request is never retried.
   */
  function OnErrorAsWritten(client: Client, e: RequestError): (o: WrittenOutcome)
    ensures e.requestConfig.None? <==> o.TypeErrorThrown?
    ensures e.requestConfig.Some? && !client.policyInRequests ==> o == Decided(OnError(client.retry, e))
    ensures e.requestConfig.Some? && client.policyInRequests ==> o == Decided(Reject(HandleError(e)))
  {
    if e.requestConfig.None? then TypeErrorThrown
    else if client.policyInRequests then Decided(Reject(HandleError(e)))
    else Decided(OnError(client.retry, e))
  }

  /** A 503 without a request config: handleError would report 503, the code as written throws instead. */
  lemma MissingConfigThrows()
    ensures var e := RequestError(None, Some(503), true, "Service Unavailable");
      && OnErrorAsWritten(NewClient("", None), e) == TypeErrorThrown
      && OnError(DefaultRetry, e) == Reject(HttpFailure(503, "Service Unavailable"))
  {
  }

  /** A client created with its own policy never retries as written, whatever the policy and the failure. */
  lemma CustomPolicyNeverRetries(cache: ClientCache, baseURL: string, policy: RetryConfig, e: RequestError)
    requires baseURL !in cache
    requires e.requestConfig.Some?
    ensures var c := CreateClient(cache, baseURL, Some(ClientConfig(None, None, Some(policy)))).1;
      && c.retry == policy
      && OnErrorAsWritten(c, e) == Decided(Reject(HandleError(e)))
  {
  }

  /**
   * The first 503 of a client created to retry three times on 503 is given up at
   * once as written, where the intended decision retries after the policy's delay.
   */
  lemma CustomPolicyFirst503()
    ensures var policy := RetryConfig(3, 500, [503]);
      var c := NewClient("https://api.example", Some(ClientConfig(None, None, Some(policy))));
      var e := RequestError(Some(0), Some(503), true, "Service Unavailable");
      && OnErrorAsWritten(c, e) == Decided(Reject(HttpFailure(503, "Service Unavailable")))
      && OnError(c.retry, e) == Retry(1, 500)
  {
  }

  /**
   * The delays of the retries made for a request whose attempts fail with the
   * given response statuses in turn, starting from counter `count`; the list
   * ends at the first failure that is not retried.
   */
  function RetryDelays(policy: RetryConfig, count: nat, statuses: seq<Option<int>>): seq<int>
    decreases |statuses|
  {
    if statuses == [] then []
    else
      match OnError(policy, RequestError(Some(count), statuses[0], true, ""))
      case Retry(next, delay) => [delay] + RetryDelays(policy, next, statuses[1..])
      case Reject(_) => []
  }

  /**
   * The counter only grows, so at most `maxRetries - count` retries happen, and
   * the i-th of them waits `retryDelay * 2^(count + i)`.
   */
  lemma {:induction false} RetriesBounded(policy: RetryConfig, count: nat, statuses: seq<Option<int>>)
    ensures |RetryDelays(policy, count, statuses)| <= if policy.maxRetries <= count then 0 else policy.maxRetries - count
    ensures forall i :: 0 <= i < |RetryDelays(policy, count, statuses)| ==>
      RetryDelays(policy, count, statuses)[i] == policy.retryDelay * Pow2(count + i)
    decreases |statuses|
  {
    if statuses != [] {
      var d := OnError(policy, RequestError(Some(count), statuses[0], true, ""));
      if d.Retry? {
        RetriesBounded(policy, count + 1, statuses[1..]);
        var rest := RetryDelays(policy, count + 1, statuses[1..]);
        assert RetryDelays(policy, count, statuses) == [d.delay] + rest;
        forall i | 1 <= i < 1 + |rest|
          ensures ([d.delay] + rest)[i] == policy.retryDelay * Pow2(count + i)
        {
          assert ([d.delay] + rest)[i] == rest[i - 1];
        }
      }
    }
  }

  /**
   * Under the default policy a request that keeps failing with 503 is retried
   * three times, after 1000, 2000 and 4000 ms, so it is attempted four times.
   */
  lemma DefaultSchedule()
    ensures RetryDelays(DefaultRetry, 0, [Some(503), Some(503), Some(503), Some(503), Some(503)]) == [1000, 2000, 4000]
  {
    assert 503 in DefaultRetry.retryableStatusCodes;
    assert Pow2(1) == 2 && Pow2(2) == 4;
  }

  /** Under the default policy a failure without a response is never retried: its status reads as 0. */
  lemma DefaultNeverRetriesMissingResponse(count: nat, sent: bool, message: string)
    ensures OnError(DefaultRetry, RequestError(Some(count), None, sent, message)).Reject?
  {
    assert 0 !in DefaultRetry.retryableStatusCodes;
  }
}

=== FILE: dams_gateway.dfy ===
/**
 * The dams gateway's subscription bookkeeping: which connected clients follow
 * which dam. Joining and leaving socket.io rooms, and the broadcasts, are
 * transport and not part of this model.
 *
 * The subscribe and unsubscribe handlers decorate only their message body, so
 * the framework passes no socket as `client`. The `...AsWritten` functions
 * model them as invoked; the plain handlers model them with the sending socket
 * bound, as intended.
 */
module DamsGateway {
  import opened Subscriptions

  datatype Gateway = Gateway(subscribedDams: Registry)

  /** A fresh gateway follows nothing. */
  function Init(): (g: Gateway)
    ensures Valid(g) && forall t, c :: !Follows(g.subscribedDams, t, c)
  {
    Gateway(map[])
  }

  /** The invariant every handler keeps: no dam maps to an empty set. */
  ghost predicate Valid(g: Gateway) {
    NoEmptySets(g.subscribedDams)
  }

  /** `handleSubscribeDam`: the client follows the dam; no other dam changes. */
  function HandleSubscribeDam(g: Gateway, clientId: string, damId: string): (r: Gateway)
    ensures Follows(r.subscribedDams, damId, clientId)
    ensures forall c :: Follows(r.subscribedDams, damId, c) <==> c == clientId || Follows(g.subscribedDams, damId, c)
    ensures forall t :: t != damId ==> (t in r.subscribedDams <==> t in g.subscribedDams)
    ensures forall t :: t != damId && t in r.subscribedDams ==> r.subscribedDams[t] == g.subscribedDams[t]
    ensures Valid(g) ==> Valid(r)
  {
    Gateway(Subscribe(g.subscribedDams, damId, clientId))
  }

  /**
   * `handleUnsubscribeDam`: the client no longer follows the dam, the
   * dam is dropped once nobody follows it, and no other dam changes.
   */
  function HandleUnsubscribeDam(g: Gateway, clientId: string, damId: string): (r: Gateway)
    ensures !Follows(r.subscribedDams, damId, clientId)
    ensures forall c :: c != clientId ==> (Follows(r.subscribedDams, damId, c) <==> Follows(g.subscribedDams, damId, c))
    ensures damId !in g.subscribedDams ==> r == g
    ensures forall t :: t != damId ==> (t in r.subscribedDams <==> t in g.subscribedDams)
    ensures forall t :: t != damId && t in r.subscribedDams ==> r.subscribedDams[t] == g.subscribedDams[t]
    ensures Valid(g) ==> Valid(r)
  {
    Gateway(Unsubscribe(g.subscribedDams, damId, clientId))
  }

  /** `handleDisconnect`: the client follows no dam, and every other client keeps its dams. */
  function HandleDisconnect(g: Gateway, clientId: string): (r: Gateway)
    ensures forall t :: !Follows(r.subscribedDams, t, clientId)
    ensures forall t, c :: c != clientId ==> (Follows(r.subscribedDams, t, c) <==> Follows(g.subscribedDams, t, c))
    ensures Valid(r)
  {
    Gateway(Disconnect(g.subscribedDams, clientId))
  }

  /** Subscribing twice to a dam is the same as subscribing once. */
  lemma SubscribeDamIdempotent(g: Gateway, clientId: string, damId: string)
    ensures HandleSubscribeDam(HandleSubscribeDam(g, clientId, damId), clientId, damId)
      == HandleSubscribeDam(g, clientId, damId)
  {
    SubscribeIdempotent(g.subscribedDams, damId, clientId);
  }

  /** For a client not following the dam, subscribe then unsubscribe restores the gateway. */
  lemma SubscribeThenUnsubscribeDam(g: Gateway, clientId: string, damId: string)
    requires Valid(g)
    requires !Follows(g.subscribedDams, damId, clientId)
    ensures HandleUnsubscribeDam(HandleSubscribeDam(g, clientId, damId), clientId, damId) == g
  {
    SubscribeThenUnsubscribe(g.subscribedDams, damId, clientId);
  }

  /**
   * `handleSubscribeDam` as the framework invokes it: only the `@MessageBody()`
   * parameter is decorated, so `client` is undefined. An unknown dam is left
   * with an empty set, nobody is subscribed, and the handler throws.
   */
  function HandleSubscribeDamAsWritten(g: Gateway, damId: string): (r: (Gateway, bool))
    ensures r.1
    ensures forall c :: Follows(r.0.subscribedDams, damId, c) <==> Follows(g.subscribedDams, damId, c)
    ensures forall t :: t != damId ==> (t in r.0.subscribedDams <==> t in g.subscribedDams)
    ensures forall t :: t != damId && t in r.0.subscribedDams ==> r.0.subscribedDams[t] == g.subscribedDams[t]
    ensures Valid(g) ==> (Valid(r.0) <==> damId in g.subscribedDams)
  {
    var o := SubscribeUnbound(g.subscribedDams, damId);
    (Gateway(o.registry), o.threw)
  }

  /** `handleUnsubscribeDam` with `client` undefined: it throws and changes nothing. */
  function HandleUnsubscribeDamAsWritten(g: Gateway, damId: string): (r: (Gateway, bool))
    ensures r.1 && r.0 == g
  {
    var o := UnsubscribeUnbound(g.subscribedDams, damId);
    (Gateway(o.registry), o.threw)
  }

  /**
   * On a fresh gateway, a subscribe as invoked leaves the dam mapped to an empty
   * set, breaking the invariant, while the intended handler subscribes the client.
   */
  lemma UnboundDamSubscribeLeavesEmptySet()
    ensures var (g, threw) := HandleSubscribeDamAsWritten(Init(), "dam-1");
      threw && g.subscribedDams == map["dam-1" := {}] && !Valid(g)
    ensures Follows(HandleSubscribeDam(Init(), "client-1", "dam-1").subscribedDams, "dam-1", "client-1")
  {
    var (g, threw) := HandleSubscribeDamAsWritten(Init(), "dam-1");
    assert "dam-1" in g.subscribedDams;
  }
}

=== FILE: dams_service.dfy ===
/**
 * The dam capacity service: the fill-status classifier, the percentage and
 * status stored with every new capacity reading, the current-capacity view
 * built from a dam's latest reading, and the not-found guards in front of them.
 *
 * Dams are a map from id to record; capacity readings are time-stamped rows in
 * insertion order. The wall clock enters as the parameter `now`.
 */
module DamsService {
  import opened Wrappers
  import opened Readings

  datatype DamStatus = Normal | Warning | Critical | Overflow

  datatype Dam = Dam(id: string, name: string, totalCapacity: real)

  /** The payload of a stored capacity row. */
  datatype Capacity = Capacity(
    storage: real,
    capacity: real,
    percentage: real,
    inflowRate: Option<real>,
    outflowRate: Option<real>,
    powerGeneration: Option<real>,
    status: DamStatus)

  /** The body of `createCapacity`. */
  datatype CreateDamCapacityDto = CreateDamCapacityDto(
    damId: string,
    storage: real,
    inflowRate: Option<real>,
    outflowRate: Option<real>,
    powerGeneration: Option<real>,
    timestamp: Option<int>)

  /** The answer of `getCurrentCapacity`. */
  datatype CurrentCapacity = CurrentCapacity(
    dam: Dam,
    storage: Option<real>,
    capacity: real,
    percentage: real,
    inflowRate: Option<real>,
    outflowRate: Option<real>,
    powerGeneration: Option<real>,
    status: DamStatus,
    message: Option<string>,
    timestamp: Option<int>)

  /** The order normal < warning < critical < overflow. */
  function StatusRank(s: DamStatus): nat {
    match s
    case Normal => 0
    case Warning => 1
    case Critical => 2
    case Overflow => 3
  }

  /** The fill percentage from which a status applies; normal applies to every percentage. */
  predicate Reaches(percentage: real, s: DamStatus) {
    match s
    case Normal => true
    case Warning => percentage >= 75.0
    case Critical => percentage >= 90.0
    case Overflow => percentage >= 100.0
  }

  /**
   * `calculateStatus`: the highest status whose lower bound the percentage
   * reaches, each bound belonging to the status above it.
   */
  function CalculateStatus(percentage: real): (r: DamStatus)
    ensures Reaches(percentage, r)
    ensures forall s :: Reaches(percentage, s) ==> StatusRank(s) <= StatusRank(r)
  {
    if percentage >= 100.0 then Overflow
    else if percentage >= 90.0 then Critical
    else if percentage >= 75.0 then Warning
    else Normal
  }

  /** A larger percentage never yields a lower status. */
  lemma StatusMonotone(p: real, q: real)
    requires p <= q
    ensures StatusRank(CalculateStatus(p)) <= StatusRank(CalculateStatus(q))
  {
    assert Reaches(q, CalculateStatus(p));
  }

  /** The pinned points: 50, 80, 95 and 100, and the inclusive bounds 75 and 90. */
  lemma StatusTestPoints()
    ensures CalculateStatus(50.0) == Normal
    ensures CalculateStatus(80.0) == Warning
    ensures CalculateStatus(95.0) == Critical
    ensures CalculateStatus(100.0) == Overflow
    ensures CalculateStatus(90.0) == Critical && CalculateStatus(75.0) == Warning
    ensures CalculateStatus(74.99) == Normal && CalculateStatus(89.99) == Warning && CalculateStatus(99.99) == Critical
  {
  }

  /** `storage / totalCapacity * 100`. */
  function FillPercentage(storage: real, totalCapacity: real): (p: real)
    requires totalCapacity != 0.0
    ensures p * totalCapacity == storage * 100.0
  {
    storage / totalCapacity * 100.0
  }

  /** `getDamById`: the dam, or NotFound naming the id. */
  function GetDamById(dams: map<string, Dam>, id: string): (r: Result<Dam, HttpError>)
    ensures r.Ok? <==> id in dams
    ensures r.Ok? ==> r.value == dams[id]
    ensures r.Err? ==> r.error == NotFound("Dam with ID " + id + " not found")
  {
    LookupById(dams, id, "Dam")
  }

  /** Every dam has a non-zero total capacity, so the percentage division is defined. */
  ghost predicate NonZeroCapacities(dams: map<string, Dam>) {
    forall id :: id in dams ==> dams[id].totalCapacity != 0.0
  }

  /**
   * `createCapacity`: NotFound for an unknown dam, with nothing written; otherwise
   * one row is appended holding the storage, the dam's total capacity, the fill
   * percentage, the status of that percentage, and the body's timestamp or `now`.
   */
  function CreateCapacity(dams: map<string, Dam>, rows: seq<Stamped<Capacity>>, dto: CreateDamCapacityDto, now: int)
    : (r: Result<(seq<Stamped<Capacity>>, Stamped<Capacity>), HttpError>)
    requires NonZeroCapacities(dams)
    ensures r.Err? <==> dto.damId !in dams
    ensures r.Err? ==> r.error == NotFound("Dam with ID " + dto.damId + " not found")
    ensures r.Ok? ==>
      var (rows', row) := r.value;
      var total := dams[dto.damId].totalCapacity;
      && rows' == rows + [row]
      && row.ownerId == dto.damId
      && row.timestamp == (if dto.timestamp.Some? then dto.timestamp.value else now)
      && row.data.storage == dto.storage
      && row.data.capacity == total
      && row.data.percentage * total == dto.storage * 100.0
      && row.data.status == CalculateStatus(row.data.percentage)
      && row.data.inflowRate == dto.inflowRate
      && row.data.outflowRate == dto.outflowRate
      && row.data.powerGeneration == dto.powerGeneration
  {
    match GetDamById(dams, dto.damId)
    case Err(e) => Err(e)
    case Ok(dam) =>
      var percentage := FillPercentage(dto.storage, dam.totalCapacity);
      var row := Stamped(dto.damId, dto.timestamp.GetOr(now),
        Capacity(dto.storage, dam.totalCapacity, percentage, dto.inflowRate, dto.outflowRate,
                 dto.powerGeneration, CalculateStatus(percentage)));
      Ok((rows + [row], row))
  }

  /**
   * `getCurrentCapacity`: NotFound for an unknown dam. With no reading for the dam
   * the view has no storage, percentage 0, status normal and an explanatory
   * message; otherwise it shows the newest reading's storage and the status
   * recomputed from it against the dam's current total capacity.
   */
  function GetCurrentCapacity(dams: map<string, Dam>, rows: seq<Stamped<Capacity>>, damId: string)
    : (r: Result<CurrentCapacity, HttpError>)
    requires NonZeroCapacities(dams)
    ensures r.Err? <==> damId !in dams
    ensures r.Err? ==> r.error == NotFound("Dam with ID " + damId + " not found")
    ensures r.Ok? ==> r.value.dam == dams[damId] && r.value.capacity == dams[damId].totalCapacity
    ensures r.Ok? && Latest(rows, damId).None? ==>
      && r.value.storage.None?
      && r.value.percentage == 0.0
      && r.value.status == Normal
      && r.value.message == Some("No capacity data available")
      && r.value.inflowRate.None? && r.value.outflowRate.None? && r.value.powerGeneration.None?
    ensures r.Ok? && Latest(rows, damId).Some? ==>
      var row := rows[Latest(rows, damId).value];
      && r.value.storage == Some(row.data.storage)
      && r.value.timestamp == Some(row.timestamp)
      && r.value.inflowRate == row.data.inflowRate
      && r.value.outflowRate == row.data.outflowRate
      && r.value.powerGeneration == row.data.powerGeneration
      && r.value.percentage * dams[damId].totalCapacity == row.data.storage * 100.0
      && r.value.status == CalculateStatus(r.value.percentage)
      && r.value.message.None?
  {
    match GetDamById(dams, damId)
    case Err(e) => Err(e)
    case Ok(dam) =>
      match Latest(rows, damId)
      case None =>
        Ok(CurrentCapacity(dam, None, dam.totalCapacity, 0.0, None, None, None, Normal, Some("No capacity data available"), None))
      case Some(k) =>
        var percentage := FillPercentage(rows[k].data.storage, dam.totalCapacity);
        Ok(CurrentCapacity(dam, Some(rows[k].data.storage), dam.totalCapacity, percentage,
                           rows[k].data.inflowRate, rows[k].data.outflowRate, rows[k].data.powerGeneration,
                           CalculateStatus(percentage), None, Some(rows[k].timestamp)))
  }

  /** The pinned example: storage 750 of a 1000 capacity dam is 75 percent, a warning. */
  lemma CurrentCapacityExample(rows: seq<Stamped<Capacity>>, dam: Dam)
    requires dam.totalCapacity == 1000.0
    requires Latest(rows, dam.id).Some? && rows[Latest(rows, dam.id).value].data.storage == 750.0
    ensures var r := GetCurrentCapacity(map[dam.id := dam], rows, dam.id);
      r.Ok? && r.value.storage == Some(750.0) && r.value.percentage == 75.0 && r.value.status == Warning
  {
  }

  /**
   * Recording a reading newer than every earlier one of its dam makes it the one
   * `getCurrentCapacity` shows, with the same percentage and status as stored.
   */
  lemma CreateThenCurrent(dams: map<string, Dam>, rows: seq<Stamped<Capacity>>, dto: CreateDamCapacityDto, now: int)
    requires NonZeroCapacities(dams)
    requires CreateCapacity(dams, rows, dto, now).Ok?
    requires forall i :: 0 <= i < |rows| && rows[i].ownerId == dto.damId ==>
      rows[i].timestamp < dto.timestamp.GetOr(now)
    ensures var (rows', row) := CreateCapacity(dams, rows, dto, now).value;
      var cur := GetCurrentCapacity(dams, rows', dto.damId);
      && cur.Ok?
      && cur.value.storage == Some(dto.storage)
      && cur.value.percentage == row.data.percentage
      && cur.value.status == row.data.status
      && cur.value.inflowRate == dto.inflowRate
      && cur.value.outflowRate == dto.outflowRate
      && cur.value.powerGeneration == dto.powerGeneration
  {
    var (rows', row) := CreateCapacity(dams, rows, dto, now).value;
    LatestAfterNewerRow(rows, row);
  }

  /**
   * `getCapacityHistory`: NotFound when the dam id is missing or empty; otherwise
   * the dam's rows inside the optional window.
   */
  function GetCapacityHistory(rows: seq<Stamped<Capacity>>, damId: Option<string>, start: Option<int>, end: Option<int>)
    : (r: Result<seq<Stamped<Capacity>>, HttpError>)
    ensures r.Err? <==> damId.None? || damId.value == ""
    ensures r.Err? ==> r.error == NotFound("Dam ID is required")
    ensures r.Ok? ==> forall x :: x in r.value <==>
      x in rows && x.ownerId == damId.value && InWindow(x.timestamp, start, end)
  {
    if damId.None? || damId.value == "" then Err(NotFound("Dam ID is required"))
    else Ok(Window(rows, damId.value, start, end))
  }
}

=== FILE: rainfall_service.dfy ===
/**
 * The rainfall service: the intensity classifier, the month-to-season mapping
 * and the per-season accumulation of a year's records, the average and the
 * drought / flood bands of the risk indicators, and the forecast stub.
 *
 * A record carries its timestamp in milliseconds and, separately, the calendar
 * year and month of that timestamp. Random numbers enter as the parameter
 * `rand`, the clock as `now` and the current calendar year as `currentYear`.
 */
module RainfallService {
  import opened Wrappers

  datatype RainStation = RainStation(id: string, name: string, region: string, isActive: bool)

  datatype RainfallRecord = RainfallRecord(stationId: string, timestamp: int, year: int, month: int, rainfall: real)

  // ---------------------------------------------------------------------------
  // Intensity
  // ---------------------------------------------------------------------------

  datatype Intensity = Light | Moderate | Heavy | Extreme

  function IntensityRank(i: Intensity): nat {
    match i
    case Light => 0
    case Moderate => 1
    case Heavy => 2
    case Extreme => 3
  }

  /** The amount of rain from which an intensity applies; light applies to every amount. */
  predicate ReachesIntensity(rainfall: real, i: Intensity) {
    match i
    case Light => true
    case Moderate => rainfall >= 2.5
    case Heavy => rainfall >= 7.5
    case Extreme => rainfall >= 15.0
  }

  /**
   * `getIntensity`: the highest intensity whose lower bound the amount reaches;
   * a bound itself belongs to the higher bucket.
   */
  function GetIntensity(rainfall: real): (r: Intensity)
    ensures ReachesIntensity(rainfall, r)
    ensures forall i :: ReachesIntensity(rainfall, i) ==> IntensityRank(i) <= IntensityRank(r)
  {
    if rainfall < 2.5 then Light
    else if rainfall < 7.5 then Moderate
    else if rainfall < 15.0 then Heavy
    else Extreme
  }

  /** More rain never yields a lower intensity. */
  lemma IntensityMonotone(a: real, b: real)
    requires a <= b
    ensures IntensityRank(GetIntensity(a)) <= IntensityRank(GetIntensity(b))
  {
    assert ReachesIntensity(b, GetIntensity(a));
  }

  /** Each boundary value falls into the higher bucket. */
  lemma IntensityBoundaries()
    ensures GetIntensity(2.5) == Moderate && GetIntensity(2.49) == Light
    ensures GetIntensity(7.5) == Heavy && GetIntensity(7.49) == Moderate
    ensures GetIntensity(15.0) == Extreme && GetIntensity(14.99) == Heavy
  {
  }

  // ---------------------------------------------------------------------------
  // Seasons
  // ---------------------------------------------------------------------------

  datatype Season = Summer | Monsoon | Winter

  /** The season of a month numbered 1 to 12: March to May summer, June to September monsoon, the rest winter. */
  function SeasonOf(month: int): (r: Season)
    ensures r == Summer <==> 3 <= month <= 5
    ensures r == Monsoon <==> 6 <= month <= 9
  {
    if 3 <= month <= 5 then Summer
    else if 6 <= month <= 9 then Monsoon
    else Winter
  }

  /** Over the twelve months, summer has three, monsoon four and winter five. */
  lemma SeasonLengths()
    ensures |set m | 1 <= m <= 12 && SeasonOf(m) == Summer| == 3
    ensures |set m | 1 <= m <= 12 && SeasonOf(m) == Monsoon| == 4
    ensures |set m | 1 <= m <= 12 && SeasonOf(m) == Winter| == 5
  {
    assert (set m | 1 <= m <= 12 && SeasonOf(m) == Summer) == {3, 4, 5};
    assert (set m | 1 <= m <= 12 && SeasonOf(m) == Monsoon) == {6, 7, 8, 9};
    assert (set m | 1 <= m <= 12 && SeasonOf(m) == Winter) == {1, 2, 10, 11, 12};
  }

  datatype SeasonTotals = SeasonTotals(total: real, days: nat)

  datatype Seasonal = Seasonal(summer: SeasonTotals, monsoon: SeasonTotals, winter: SeasonTotals) {
    function Get(s: Season): SeasonTotals {
      match s
      case Summer => summer
      case Monsoon => monsoon
      case Winter => winter
    }
  }

  /** The sum of the rainfall of `rs`. */
  function TotalRainfall(rs: seq<RainfallRecord>): real
    decreases |rs|
  {
    if rs == [] then 0.0 else TotalRainfall(rs[..|rs| - 1]) + rs[|rs| - 1].rainfall
  }

  /** The records of `rs` that fall in season `s`. */
  function InSeason(rs: seq<RainfallRecord>, s: Season): (r: seq<RainfallRecord>)
    ensures forall x :: x in r <==> x in rs && SeasonOf(x.month) == s
    decreases |rs|
  {
    if rs == [] then []
    else
      var init := InSeason(rs[..|rs| - 1], s);
      assert forall x :: x in rs <==> x in rs[..|rs| - 1] || x == rs[|rs| - 1];
      if SeasonOf(rs[|rs| - 1].month) == s then init + [rs[|rs| - 1]] else init
  }

  /** One step of the `forEach`: the record's rain and one day are added to its season only. */
  function AddRecord(acc: Seasonal, rec: RainfallRecord): (r: Seasonal)
    ensures forall s :: s != SeasonOf(rec.month) ==> r.Get(s) == acc.Get(s)
    ensures r.Get(SeasonOf(rec.month)) == SeasonTotals(acc.Get(SeasonOf(rec.month)).total + rec.rainfall, acc.Get(SeasonOf(rec.month)).days + 1)
  {
    var t := acc.Get(SeasonOf(rec.month));
    var t' := SeasonTotals(t.total + rec.rainfall, t.days + 1);
    match SeasonOf(rec.month)
    case Summer => acc.(summer := t')
    case Monsoon => acc.(monsoon := t')
    case Winter => acc.(winter := t')
  }

  const NoRain := SeasonTotals(0.0, 0)

  /**
   * The seasonal accumulation over `rs` in order. Each record lands in exactly
   * one season: the day counts add up to the number of records and the totals
   * to the total rainfall.
   */
  function Accumulate(rs: seq<RainfallRecord>): (r: Seasonal)
    ensures r.summer.days + r.monsoon.days + r.winter.days == |rs|
    ensures r.summer.total + r.monsoon.total + r.winter.total == TotalRainfall(rs)
    decreases |rs|
  {
    if rs == [] then Seasonal(NoRain, NoRain, NoRain)
    else AddRecord(Accumulate(rs[..|rs| - 1]), rs[|rs| - 1])
  }

  /** Each season's figures are those of exactly the records of that season. */
  lemma {:induction false} AccumulatePerSeason(rs: seq<RainfallRecord>, s: Season)
    ensures Accumulate(rs).Get(s) == SeasonTotals(TotalRainfall(InSeason(rs, s)), |InSeason(rs, s)|)
    decreases |rs|
  {
    if rs != [] {
      var init, last := rs[..|rs| - 1], rs[|rs| - 1];
      AccumulatePerSeason(init, s);
      assert Accumulate(rs) == AddRecord(Accumulate(init), last);
      if SeasonOf(last.month) == s {
        var xs := InSeason(init, s) + [last];
        assert InSeason(rs, s) == xs;
        assert xs[..|xs| - 1] == InSeason(init, s);
        assert TotalRainfall(xs) == TotalRainfall(InSeason(init, s)) + last.rainfall;
      } else {
        assert InSeason(rs, s) == InSeason(init, s);
      }
    }
  }

  /** `year || currentYear`: an absent year, and the falsy year 0, fall back to the current one. */
  function TargetYear(year: Option<int>, currentYear: int): (r: int)
    ensures year.Some? && year.value != 0 ==> r == year.value
    ensures year.None? || year.value == 0 ==> r == currentYear
  {
    if year.Some? && year.value != 0 then year.value else currentYear
  }

  /** The answer of `getSeasonalAnalysis`. */
  datatype SeasonalAnalysis = SeasonalAnalysis(station: RainStation, year: int, seasonal: Seasonal)

  /** `getStationById`: the station, or NotFound naming the id. */
  function GetStationById(stations: map<string, RainStation>, id: string): (r: Result<RainStation, HttpError>)
    ensures r.Ok? <==> id in stations
    ensures r.Ok? ==> r.value == stations[id]
    ensures r.Err? ==> r.error == NotFound("Station with ID " + id + " not found")
  {
    LookupById(stations, id, "Station")
  }

  /** The records the seasonal query returns: the station's records of the target year, in order. */
  function YearRecords(records: seq<RainfallRecord>, stationId: string, year: int): (r: seq<RainfallRecord>)
    ensures forall x :: x in r <==> x in records && x.stationId == stationId && x.year == year
    decreases |records|
  {
    if records == [] then []
    else
      var rest := YearRecords(records[1..], stationId, year);
      assert forall x :: x in records <==> x == records[0] || x in records[1..];
      if records[0].stationId == stationId && records[0].year == year then [records[0]] + rest else rest
  }

  /**
   * `getSeasonalAnalysis`: NotFound for an unknown station; otherwise the target
   * year and the accumulation over the station's records of that year.
   */
  function GetSeasonalAnalysis(
    stations: map<string, RainStation>, records: seq<RainfallRecord>, stationId: string,
    year: Option<int>, currentYear: int)
    : (r: Result<SeasonalAnalysis, HttpError>)
    ensures r.Err? <==> stationId !in stations
    ensures r.Err? ==> r.error == NotFound("Station with ID " + stationId + " not found")
    ensures r.Ok? ==>
      var data := YearRecords(records, stationId, TargetYear(year, currentYear));
      && r.value.station == stations[stationId]
      && r.value.year == TargetYear(year, currentYear)
      && r.value.seasonal.summer.days + r.value.seasonal.monsoon.days + r.value.seasonal.winter.days == |data|
      && r.value.seasonal.summer.total + r.value.seasonal.monsoon.total + r.value.seasonal.winter.total == TotalRainfall(data)
  {
    match GetStationById(stations, stationId)
    case Err(e) => Err(e)
    case Ok(st) =>
      var y := TargetYear(year, currentYear);
      Ok(SeasonalAnalysis(st, y, Accumulate(YearRecords(records, stationId, y))))
  }

  // ---------------------------------------------------------------------------
  // Risk indicators
  // ---------------------------------------------------------------------------

  datatype Risk = Low | Medium | High

  /** `total / (count || 1)`: the mean, and 0 for no records. */
  function AverageRainfall(rs: seq<RainfallRecord>): (avg: real)
    ensures |rs| > 0 ==> avg * (|rs| as real) == TotalRainfall(rs)
    ensures |rs| == 0 ==> avg == 0.0
  {
    TotalRainfall(rs) / (if |rs| == 0 then 1 else |rs|) as real
  }

  /** Drought risk: high below an average of 10, medium below 25, otherwise low. */
  function DroughtRisk(avg: real): (r: Risk)
    ensures r == High <==> avg < 10.0
    ensures r == Medium <==> 10.0 <= avg < 25.0
    ensures r == Low <==> 25.0 <= avg
  {
    if avg < 10.0 then High else if avg < 25.0 then Medium else Low
  }

  /** Flood risk: high above an average of 100, medium above 50, otherwise low. */
  function FloodRisk(avg: real): (r: Risk)
    ensures r == High <==> 100.0 < avg
    ensures r == Medium <==> 50.0 < avg <= 100.0
    ensures r == Low <==> avg <= 50.0
  {
    if avg > 100.0 then High else if avg > 50.0 then Medium else Low
  }

  /** The two bands never both flag a risk: any drought risk means low flood risk, and back. */
  lemma RiskBandsExclusive(avg: real)
    ensures DroughtRisk(avg) != Low ==> FloodRisk(avg) == Low
    ensures FloodRisk(avg) != Low ==> DroughtRisk(avg) == Low
    ensures DroughtRisk(avg) == High ==> FloodRisk(avg) == Low
  {
  }

  /** Drought risk falls and flood risk rises as the average grows. */
  lemma RiskBandsMonotone(a: real, b: real)
    requires a <= b
    ensures RiskRank(DroughtRisk(b)) <= RiskRank(DroughtRisk(a))
    ensures RiskRank(FloodRisk(a)) <= RiskRank(FloodRisk(b))
  {
  }

  function RiskRank(r: Risk): nat {
    match r
    case Low => 0
    case Medium => 1
    case High => 2
  }

  /** The answer of `getRiskIndicators`. */
  datatype RiskReport = RiskReport(region: string, averageRainfall: real, droughtRisk: Risk, floodRisk: Risk, period: string)

  /** Thirty days in milliseconds, the look-back of the risk query. */
  const LookBackMs: int := 30 * 24 * 60 * 60 * 1000

  /**
   * `stationId` is the id of one of the stations `findByRegion(region)` lists:
   * the active stations of the region.
   */
  predicate InRegion(stations: seq<RainStation>, region: string, stationId: string)
    decreases |stations|
  {
    && stations != []
    && ((stations[0].region == region && stations[0].isActive && stations[0].id == stationId)
        || InRegion(stations[1..], region, stationId))
  }

  /** The region's stations are exactly its active stations, whatever their position. */
  lemma {:induction false} InRegionIff(stations: seq<RainStation>, region: string, stationId: string)
    ensures InRegion(stations, region, stationId) <==>
      exists i :: 0 <= i < |stations| && stations[i].id == stationId && stations[i].region == region && stations[i].isActive
    decreases |stations|
  {
    if stations != [] {
      InRegionIff(stations[1..], region, stationId);
      if InRegion(stations[1..], region, stationId) {
        var i :| 0 <= i < |stations[1..]| && stations[1..][i].id == stationId
          && stations[1..][i].region == region && stations[1..][i].isActive;
        assert stations[i + 1] == stations[1..][i];
      }
      if exists i :: 0 <= i < |stations| && stations[i].id == stationId && stations[i].region == region && stations[i].isActive {
        var i :| 0 <= i < |stations| && stations[i].id == stationId && stations[i].region == region && stations[i].isActive;
        if i > 0 {
          assert stations[1..][i - 1] == stations[i];
        }
      }
    }
  }

  /** A record is selected when it is recent and, if a region is given, from one of its stations. */
  predicate Selected(stations: seq<RainStation>, x: RainfallRecord, region: Option<string>, now: int) {
    && x.timestamp >= now - LookBackMs
    && (region.Some? && region.value != "" ==> InRegion(stations, region.value, x.stationId))
  }

  /** The records the risk query returns: the last thirty days, restricted to the region's stations when one is given. */
  function RecentRecords(stations: seq<RainStation>, records: seq<RainfallRecord>, region: Option<string>, now: int)
    : (r: seq<RainfallRecord>)
    ensures forall x :: x in r <==> x in records && Selected(stations, x, region, now)
    decreases |records|
  {
    if records == [] then []
    else
      var rest := RecentRecords(stations, records[1..], region, now);
      var x := records[0];
      assert forall y :: y in records <==> y == x || y in records[1..];
      if Selected(stations, x, region, now) then [x] + rest
      else rest
  }

  /**
   * `getRiskIndicators`: the region label (`all` when none is given), the
   * average over the selected records and both risk bands of that average.
   */
  function GetRiskIndicators(stations: seq<RainStation>, records: seq<RainfallRecord>, region: Option<string>, now: int)
    : (r: RiskReport)
    ensures region.Some? && region.value != "" ==> r.region == region.value
    ensures region.None? || region.value == "" ==> r.region == "all"
    ensures var data := RecentRecords(stations, records, region, now);
      && (|data| > 0 ==> r.averageRainfall * (|data| as real) == TotalRainfall(data))
      && (|data| == 0 ==> r.averageRainfall == 0.0)
    ensures r.droughtRisk == DroughtRisk(r.averageRainfall) && r.floodRisk == FloodRisk(r.averageRainfall)
    ensures r.period == "30 days"
  {
    var data := RecentRecords(stations, records, region, now);
    var avg := AverageRainfall(data);
    var shown := if region.Some? && region.value != "" then region.value else "all";
    RiskReport(shown, avg, DroughtRisk(avg), FloodRisk(avg), "30 days")
  }

  /** With no recent records the average is 0, so drought risk is high and flood risk low. */
  lemma NoDataMeansDrought(stations: seq<RainStation>, records: seq<RainfallRecord>, region: Option<string>, now: int)
    requires RecentRecords(stations, records, region, now) == []
    ensures GetRiskIndicators(stations, records, region, now).droughtRisk == High
    ensures GetRiskIndicators(stations, records, region, now).floodRisk == Low
  {
  }
  /**
   * A region whose stations are all deactivated selects no record, however much
   * rain its stations recorded, so its drought risk is high and flood risk low.
   */
  lemma InactiveRegionMeansDrought(stations: seq<RainStation>, records: seq<RainfallRecord>, region: string, now: int)
    requires region != ""
    requires forall i :: 0 <= i < |stations| && stations[i].region == region ==> !stations[i].isActive
    ensures GetRiskIndicators(stations, records, Some(region), now).droughtRisk == High
    ensures GetRiskIndicators(stations, records, Some(region), now).floodRisk == Low
  {
    var data := RecentRecords(stations, records, Some(region), now);
    if data != [] {
      assert data[0] in data;
      InRegionIff(stations, region, data[0].stationId);
      assert false;
    }
    NoDataMeansDrought(stations, records, Some(region), now);
  }


  // ---------------------------------------------------------------------------
  // Forecast
  // ---------------------------------------------------------------------------

  /** One forecast entry; the date is `dayOffset` days after today. */
  datatype ForecastDay = ForecastDay(dayOffset: nat, predictedRainfall: real, confidence: real, intensity: Intensity)

  datatype Forecast = Forecast(station: RainStation, forecast: seq<ForecastDay>)

  /** A source of `Math.random` values: the k-th call returns `rand(k)`, in [0, 1). */
  ghost predicate UnitRandom(rand: nat -> real) {
    forall k: nat :: 0.0 <= rand(k) < 1.0
  }

  /** The number of loop turns for a `days` argument: undefined means 7, a negative count none. */
  function ForecastLength(days: Option<int>): (n: nat)
    ensures days.None? ==> n == 7
    ensures days.Some? ==> n == if days.value < 0 then 0 else days.value
  {
    var d := days.GetOr(7);
    if d < 0 then 0 else d
  }

  /**
   * `getForecast`: NotFound for an unknown station; otherwise one entry per day.
   * Entry i draws three random numbers in turn: the predicted rainfall (up to
   * 50), the confidence (75 up to 95), and a separate amount from which the
   * intensity is graded, so the intensity need not match the predicted rainfall.
   */
  method GetForecast(stations: map<string, RainStation>, stationId: string, days: Option<int>, rand: nat -> real)
    returns (r: Result<Forecast, HttpError>)
    requires UnitRandom(rand)
    ensures r.Err? <==> stationId !in stations
    ensures r.Err? ==> r.error == NotFound("Station with ID " + stationId + " not found")
    ensures r.Ok? ==> r.value.station == stations[stationId] && |r.value.forecast| == ForecastLength(days)
    ensures r.Ok? ==> forall i :: 0 <= i < |r.value.forecast| ==>
      var e := r.value.forecast[i];
      && e.dayOffset == i
      && e.predictedRainfall == rand(3 * i) * 50.0
      && 0.0 <= e.predictedRainfall < 50.0
      && e.confidence == 75.0 + rand(3 * i + 1) * 20.0
      && 75.0 <= e.confidence < 95.0
      && e.intensity == GetIntensity(rand(3 * i + 2) * 50.0)
  {
    if stationId !in stations {
      return Err(NotFound("Station with ID " + stationId + " not found"));
    }
    var n := ForecastLength(days);
    var forecast: seq<ForecastDay> := [];
    var i := 0;
    while i < n
      invariant 0 <= i <= n && |forecast| == i
      invariant forall j :: 0 <= j < i ==>
        var e := forecast[j];
        && e.dayOffset == j
        && e.predictedRainfall == rand(3 * j) * 50.0
        && 0.0 <= e.predictedRainfall < 50.0
        && e.confidence == 75.0 + rand(3 * j + 1) * 20.0
        && 75.0 <= e.confidence < 95.0
        && e.intensity == GetIntensity(rand(3 * j + 2) * 50.0)
    {
      var predicted := rand(3 * i) * 50.0;
      var confidence := 75.0 + rand(3 * i + 1) * 20.0;
      var intensity := GetIntensity(rand(3 * i + 2) * 50.0);
      forecast := forecast + [ForecastDay(i, predicted, confidence, intensity)];
      i := i + 1;
    }
    return Ok(Forecast(stations[stationId], forecast));
  }
}

=== FILE: rate_limit.dfy ===
/**
 * The fixed-window rate limiter: per client key a request counter and the time
 * its window ends. Each request first drops every expired record, then opens a
 * new window for a key without a record, rejects with 429 once the key has used
 * its 100 requests, and counts the request otherwise.
 *
 * The wall clock enters as the parameter `now` (milliseconds).
 */
module RateLimit {
  import opened Wrappers

  datatype Record = Record(count: int, resetTime: int)

  type Requests = map<string, Record>

  datatype Outcome = Allowed | TooManyRequests

  /** The window length: one minute. */
  const WindowMs: int := 60 * 1000

  /** The number of requests a key may make per window. */
  const MaxRequests: int := 100

  /** The body of the 429 answer. */
  const TooManyMessage: string := "Too many requests, please try again later."

  /**
   * The key of a request: its `ip`, else the socket's remote address, else
   * `unknown`; an empty string is falsy and falls through like an absent one.
   */
  function RequestKey(ip: Option<string>, remoteAddress: Option<string>): (key: string)
    ensures ip.Some? && ip.value != "" ==> key == ip.value
    ensures (ip.None? || ip.value == "") && remoteAddress.Some? && remoteAddress.value != "" ==> key == remoteAddress.value
    ensures (ip.None? || ip.value == "") && (remoteAddress.None? || remoteAddress.value == "") ==> key == "unknown"
  {
    if ip.Some? && ip.value != "" then ip.value
    else if remoteAddress.Some? && remoteAddress.value != "" then remoteAddress.value
    else "unknown"
  }

  /** `cleanup`: the records whose window has not ended at `now`. */
  function Cleanup(requests: Requests, now: int): (r: Requests)
    ensures forall k :: k in r <==> k in requests && now <= requests[k].resetTime
    ensures forall k :: k in r ==> r[k] == requests[k]
  {
    map k | k in requests && !(now > requests[k].resetTime) :: requests[k]
  }

  /** Every stored count lies between 1 and the cap. */
  ghost predicate Valid(requests: Requests) {
    forall k :: k in requests ==> 1 <= requests[k].count <= MaxRequests
  }

  /**
   * `use`: clean up, then open a window for a key with no live record (count 1,
   * ending a minute from now), reject when the key's count has reached the cap,
   * and otherwise count the request. A rejected request leaves the cleaned-up
   * state as it is.
   */
  function Use(requests: Requests, key: string, now: int): (r: (Requests, Outcome))
    ensures var cleaned := Cleanup(requests, now);
      && (r.1 == Allowed <==> key !in cleaned || cleaned[key].count < MaxRequests)
      && (key !in cleaned ==> r.0 == cleaned[key := Record(1, now + WindowMs)])
      && (key in cleaned && r.1 == Allowed ==> r.0 == cleaned[key := cleaned[key].(count := cleaned[key].count + 1)])
      && (r.1 == TooManyRequests ==> r.0 == cleaned)
  {
    var cleaned := Cleanup(requests, now);
    if key !in cleaned || now > cleaned[key].resetTime then
      (cleaned[key := Record(1, now + WindowMs)], Allowed)
    else if cleaned[key].count >= MaxRequests then
      (cleaned, TooManyRequests)
    else
      (cleaned[key := cleaned[key].(count := cleaned[key].count + 1)], Allowed)
  }

  /** After the clean-up no record is expired, so the `now > resetTime` half of the new-window test never fires. */
  lemma ExpiredTestIsDead(requests: Requests, key: string, now: int)
    requires key in Cleanup(requests, now)
    ensures !(now > Cleanup(requests, now)[key].resetTime)
  {
  }

  /**
   * When no stored window has ended, the clean-up removes nothing, so a
   * rejected request leaves the stored map exactly as it was.
   */
  lemma RejectLeavesLiveStateUnchanged(requests: Requests, key: string, now: int)
    requires forall k :: k in requests ==> now <= requests[k].resetTime
    ensures Use(requests, key, now).1 == TooManyRequests ==> Use(requests, key, now).0 == requests
  {
    assert Cleanup(requests, now) == requests;
  }

  /** `use` keeps every count between 1 and 100. */
  lemma UsePreservesValid(requests: Requests, key: string, now: int)
    requires Valid(requests)
    ensures Valid(Use(requests, key, now).0)
  {
  }

  /** After `use`, every stored window ends no earlier than `now`. */
  lemma UseLeavesLiveWindows(requests: Requests, key: string, now: int)
    ensures forall k :: k in Use(requests, key, now).0 ==> Use(requests, key, now).0[k].resetTime >= now
  {
  }

  /** Records of other keys change only by the removal of expired ones. */
  lemma UseTouchesOnlyItsKey(requests: Requests, key: string, now: int, other: string)
    requires other != key
    ensures other in Use(requests, key, now).0 <==> other in requests && now <= requests[other].resetTime
    ensures other in Use(requests, key, now).0 ==> Use(requests, key, now).0[other] == requests[other]
  {
  }

  /** The number of requests of `key` at the times `times` that are let through, starting from `requests`. */
  function AllowedCount(requests: Requests, key: string, times: seq<int>): nat
    decreases |times|
  {
    if times == [] then 0
    else
      var (next, outcome) := Use(requests, key, times[0]);
      (if outcome == Allowed then 1 else 0) + AllowedCount(next, key, times[1..])
  }

  /**
   * Within a live window, a key whose count is `c` gets at most `100 - c` more
   * requests through, whatever their number.
   */
  lemma {:induction false} WindowCap(requests: Requests, key: string, times: seq<int>)
    requires key in requests && 1 <= requests[key].count <= MaxRequests
    requires forall i :: 0 <= i < |times| ==> times[i] <= requests[key].resetTime
    ensures AllowedCount(requests, key, times) <= MaxRequests - requests[key].count
    decreases |times|
  {
    if times != [] {
      var (next, outcome) := Use(requests, key, times[0]);
      assert key in Cleanup(requests, times[0]);
      assert next[key].resetTime == requests[key].resetTime;
      if outcome == Allowed {
        assert next[key].count == requests[key].count + 1;
      } else {
        assert next[key] == requests[key];
      }
      WindowCap(next, key, times[1..]);
    }
  }

  /**
   * From a key with no live record, requests arriving within a minute of the
   * first one get at most 100 through.
   */
  lemma AtMostMaxPerWindow(requests: Requests, key: string, times: seq<int>)
    requires times != []
    requires key !in Cleanup(requests, times[0])
    requires forall i :: 0 <= i < |times| ==> times[i] <= times[0] + WindowMs
    ensures AllowedCount(requests, key, times) <= MaxRequests
  {
    var (next, outcome) := Use(requests, key, times[0]);
    assert next[key] == Record(1, times[0] + WindowMs);
    WindowCap(next, key, times[1..]);
  }
}

=== FILE: readings.dfy ===
/**
 * Time-stamped measurement rows, as the dams and river services keep them: each
 * row belongs to one owner (a dam or a station) and carries a timestamp. The two
 * queries the services issue on them are the latest row of an owner
 * (`findFirst` ordered by timestamp descending) and the rows of an owner inside an
 * optional date window (`findMany` with `gte` / `lte`).
 */
module Readings {
  import opened Wrappers

  /** A stored row: its owner's id, its timestamp in milliseconds, and its payload. */
  datatype Stamped<T> = Stamped(ownerId: string, timestamp: int, data: T)

  /**
   * The position of the newest row of `ownerId`; among rows sharing the newest
   * timestamp, the one stored first.
   */
  function Latest<T>(rows: seq<Stamped<T>>, ownerId: string): (r: Option<nat>)
    ensures r.None? <==> forall i :: 0 <= i < |rows| ==> rows[i].ownerId != ownerId
    ensures r.Some? ==> r.value < |rows| && rows[r.value].ownerId == ownerId
    ensures r.Some? ==> forall i :: 0 <= i < |rows| && rows[i].ownerId == ownerId ==>
      rows[i].timestamp <= rows[r.value].timestamp
    ensures r.Some? ==> forall i :: 0 <= i < r.value && rows[i].ownerId == ownerId ==>
      rows[i].timestamp < rows[r.value].timestamp
    decreases |rows|
  {
    if rows == [] then None
    else
      var init := rows[..|rows| - 1];
      var last := rows[|rows| - 1];
      var r := Latest(init, ownerId);
      assert forall i :: 0 <= i < |init| ==> rows[i] == init[i];
      if last.ownerId != ownerId then r
      else if r.Some? && init[r.value].timestamp >= last.timestamp then r
      else Some(|rows| - 1)
  }

  /** Appending a row strictly newer than every row of its owner makes it that owner's latest. */
  lemma {:induction false} LatestAfterNewerRow<T>(rows: seq<Stamped<T>>, row: Stamped<T>)
    requires forall i :: 0 <= i < |rows| && rows[i].ownerId == row.ownerId ==> rows[i].timestamp < row.timestamp
    ensures Latest(rows + [row], row.ownerId) == Some(|rows|)
  {
    var rows' := rows + [row];
    assert rows'[..|rows'| - 1] == rows;
    var r := Latest(rows, row.ownerId);
    if r.Some? {
      assert rows[r.value].ownerId == row.ownerId;
    }
  }

  /** Appending a row of another owner does not move an owner's latest row. */
  lemma {:induction false} LatestIgnoresOtherOwners<T>(rows: seq<Stamped<T>>, row: Stamped<T>, ownerId: string)
    requires row.ownerId != ownerId
    ensures Latest(rows + [row], ownerId) == Latest(rows, ownerId)
  {
    assert (rows + [row])[..|rows|] == rows;
  }

  /** A bound that is absent (undefined or an empty date string) does not constrain. */
  predicate InWindow(timestamp: int, start: Option<int>, end: Option<int>) {
    (start.None? || start.value <= timestamp) && (end.None? || timestamp <= end.value)
  }

  /**
   * The rows of `ownerId` whose timestamp lies in the inclusive window, in the
   * order they are stored.
   */
  function Window<T(!new)>(rows: seq<Stamped<T>>, ownerId: string, start: Option<int>, end: Option<int>)
    : (r: seq<Stamped<T>>)
    ensures forall x :: x in r <==> x in rows && x.ownerId == ownerId && InWindow(x.timestamp, start, end)
    ensures |r| <= |rows|
    decreases |rows|
  {
    if rows == [] then []
    else
      var rest := Window(rows[1..], ownerId, start, end);
      assert forall x :: x in rows <==> x == rows[0] || x in rows[1..];
      if rows[0].ownerId == ownerId && InWindow(rows[0].timestamp, start, end) then [rows[0]] + rest
      else rest
  }

  /** Without bounds, the window keeps exactly the owner's rows, so it contains the latest one. */
  lemma LatestIsInUnboundedWindow<T(!new)>(rows: seq<Stamped<T>>, ownerId: string)
    requires Latest(rows, ownerId).Some?
    ensures rows[Latest(rows, ownerId).value] in Window(rows, ownerId, None, None)
  {
  }
}

=== FILE: river_gateway.dfy ===
/**
 * The river gateway's subscription bookkeeping: which connected clients follow
 * which station. Joining and leaving socket.io rooms, and the broadcasts, are
 * transport and not part of this model.
 *
 * The subscribe and unsubscribe handlers decorate only their message body, so
 * the framework passes no socket as `client`. The `...AsWritten` functions
 * model them as invoked; the plain handlers model them with the sending socket
 * bound, as intended.
 */
module RiverGateway {
  import opened Subscriptions

  datatype Gateway = Gateway(subscribedStations: Registry)

  /** A fresh gateway follows nothing. */
  function Init(): (g: Gateway)
    ensures Valid(g) && forall t, c :: !Follows(g.subscribedStations, t, c)
  {
    Gateway(map[])
  }

  /** The invariant every handler keeps: no station maps to an empty set. */
  ghost predicate Valid(g: Gateway) {
    NoEmptySets(g.subscribedStations)
  }

  /** `handleSubscribeStation`: the client follows the station; no other station changes. */
  function HandleSubscribeStation(g: Gateway, clientId: string, stationId: string): (r: Gateway)
    ensures Follows(r.subscribedStations, stationId, clientId)
    ensures forall c :: Follows(r.subscribedStations, stationId, c) <==> c == clientId || Follows(g.subscribedStations, stationId, c)
    ensures forall t :: t != stationId ==> (t in r.subscribedStations <==> t in g.subscribedStations)
    ensures forall t :: t != stationId && t in r.subscribedStations ==> r.subscribedStations[t] == g.subscribedStations[t]
    ensures Valid(g) ==> Valid(r)
  {
    Gateway(Subscribe(g.subscribedStations, stationId, clientId))
  }

  /**
   * `handleUnsubscribeStation`: the client no longer follows the station, the
   * station is dropped once nobody follows it, and no other station changes.
   */
  function HandleUnsubscribeStation(g: Gateway, clientId: string, stationId: string): (r: Gateway)
    ensures !Follows(r.subscribedStations, stationId, clientId)
    ensures forall c :: c != clientId ==> (Follows(r.subscribedStations, stationId, c) <==> Follows(g.subscribedStations, stationId, c))
    ensures stationId !in g.subscribedStations ==> r == g
    ensures forall t :: t != stationId ==> (t in r.subscribedStations <==> t in g.subscribedStations)
    ensures forall t :: t != stationId && t in r.subscribedStations ==> r.subscribedStations[t] == g.subscribedStations[t]
    ensures Valid(g) ==> Valid(r)
  {
    Gateway(Unsubscribe(g.subscribedStations, stationId, clientId))
  }

  /** `handleDisconnect`: the client follows no station, and every other client keeps its stations. */
  function HandleDisconnect(g: Gateway, clientId: string): (r: Gateway)
    ensures forall t :: !Follows(r.subscribedStations, t, clientId)
    ensures forall t, c :: c != clientId ==> (Follows(r.subscribedStations, t, c) <==> Follows(g.subscribedStations, t, c))
    ensures Valid(r)
  {
    Gateway(Disconnect(g.subscribedStations, clientId))
  }

  /** Subscribing twice to a station is the same as subscribing once. */
  lemma SubscribeStationIdempotent(g: Gateway, clientId: string, stationId: string)
    ensures HandleSubscribeStation(HandleSubscribeStation(g, clientId, stationId), clientId, stationId)
      == HandleSubscribeStation(g, clientId, stationId)
  {
    SubscribeIdempotent(g.subscribedStations, stationId, clientId);
  }

  /** For a client not following the station, subscribe then unsubscribe restores the gateway. */
  lemma SubscribeThenUnsubscribeStation(g: Gateway, clientId: string, stationId: string)
    requires Valid(g)
    requires !Follows(g.subscribedStations, stationId, clientId)
    ensures HandleUnsubscribeStation(HandleSubscribeStation(g, clientId, stationId), clientId, stationId) == g
  {
    SubscribeThenUnsubscribe(g.subscribedStations, stationId, clientId);
  }

  /**
   * `handleSubscribeStation` as the framework invokes it: only the `@MessageBody()`
   * parameter is decorated, so `client` is undefined. An unknown station is left
   * with an empty set, nobody is subscribed, and the handler throws.
   */
  function HandleSubscribeStationAsWritten(g: Gateway, stationId: string): (r: (Gateway, bool))
    ensures r.1
    ensures forall c :: Follows(r.0.subscribedStations, stationId, c) <==> Follows(g.subscribedStations, stationId, c)
    ensures forall t :: t != stationId ==> (t in r.0.subscribedStations <==> t in g.subscribedStations)
    ensures forall t :: t != stationId && t in r.0.subscribedStations ==> r.0.subscribedStations[t] == g.subscribedStations[t]
    ensures Valid(g) ==> (Valid(r.0) <==> stationId in g.subscribedStations)
  {
    var o := SubscribeUnbound(g.subscribedStations, stationId);
    (Gateway(o.registry), o.threw)
  }

  /** `handleUnsubscribeStation` with `client` undefined: it throws and changes nothing. */
  function HandleUnsubscribeStationAsWritten(g: Gateway, stationId: string): (r: (Gateway, bool))
    ensures r.1 && r.0 == g
  {
    var o := UnsubscribeUnbound(g.subscribedStations, stationId);
    (Gateway(o.registry), o.threw)
  }

  /**
   * On a fresh gateway, a subscribe as invoked leaves the station mapped to an empty
   * set, breaking the invariant, while the intended handler subscribes the client.
   */
  lemma UnboundStationSubscribeLeavesEmptySet()
    ensures var (g, threw) := HandleSubscribeStationAsWritten(Init(), "station-1");
      threw && g.subscribedStations == map["station-1" := {}] && !Valid(g)
    ensures Follows(HandleSubscribeStation(Init(), "client-1", "station-1").subscribedStations, "station-1", "client-1")
  {
    var (g, threw) := HandleSubscribeStationAsWritten(Init(), "station-1");
    assert "station-1" in g.subscribedStations;
  }
}

=== FILE: river_service.dfy ===
/**
 * The river level service: the flood-risk classifier against a station's
 * danger and flood levels, the status stored with every new level reading, the
 * current-level view built from a station's latest reading, and the not-found
 * guards in front of them.
 */
module RiverService {
  import opened Wrappers
  import opened Readings

  datatype RiverLevelStatus = Safe | Warning | Danger | Critical

  datatype Station = Station(id: string, name: string, dangerLevel: real, floodLevel: real)

  /** The payload of a stored level row. */
  datatype Level = Level(level: real, status: RiverLevelStatus)

  /** The body of `createLevel`. */
  datatype CreateRiverLevelDto = CreateRiverLevelDto(stationId: string, level: real, timestamp: Option<int>)

  /** The answer of `getCurrentLevel`. */
  datatype CurrentLevel = CurrentLevel(
    station: Station,
    level: Option<real>,
    timestamp: Option<int>,
    status: RiverLevelStatus,
    message: Option<string>)

  /** The order safe < warning < danger < critical. */
  function RiskRank(s: RiverLevelStatus): nat {
    match s
    case Safe => 0
    case Warning => 1
    case Danger => 2
    case Critical => 3
  }

  /** The fraction of the danger level from which a reading is a warning. */
  const WarningFraction: real := 0.8

  /**
   * `calculateFloodRisk`, first match wins: at or above the flood level critical,
   * else at or above the danger level danger, else at or above 80% of the danger
   * level warning, else safe.
   */
  function CalculateFloodRisk(level: real, dangerLevel: real, floodLevel: real): (r: RiverLevelStatus)
    ensures r == Critical <==> level >= floodLevel
    ensures r == Danger <==> floodLevel > level >= dangerLevel
    ensures r == Warning <==> level < floodLevel && dangerLevel > level >= WarningFraction * dangerLevel
    ensures r == Safe <==> level < floodLevel && level < dangerLevel && level < WarningFraction * dangerLevel
  {
    if level >= floodLevel then Critical
    else if level >= dangerLevel then Danger
    else if level >= dangerLevel * 0.8 then Warning
    else Safe
  }

  /** The lower bound of each status on a well-ordered station; safe has none. */
  predicate Reaches(level: real, dangerLevel: real, floodLevel: real, s: RiverLevelStatus) {
    match s
    case Safe => true
    case Warning => level >= WarningFraction * dangerLevel
    case Danger => level >= dangerLevel
    case Critical => level >= floodLevel
  }

  /**
   * When 0 <= danger <= flood the bounds are ordered, and the status is the
   * highest one whose bound the level reaches.
   */
  lemma FloodRiskIsHighestReached(level: real, dangerLevel: real, floodLevel: real)
    requires 0.0 <= dangerLevel <= floodLevel
    ensures Reaches(level, dangerLevel, floodLevel, CalculateFloodRisk(level, dangerLevel, floodLevel))
    ensures forall s :: Reaches(level, dangerLevel, floodLevel, s) ==>
      RiskRank(s) <= RiskRank(CalculateFloodRisk(level, dangerLevel, floodLevel))
  {
  }

  /** For 0 <= danger <= flood, a higher level never yields a lower risk. */
  lemma FloodRiskMonotone(level1: real, level2: real, dangerLevel: real, floodLevel: real)
    requires 0.0 <= dangerLevel <= floodLevel
    requires level1 <= level2
    ensures RiskRank(CalculateFloodRisk(level1, dangerLevel, floodLevel)) <= RiskRank(CalculateFloodRisk(level2, dangerLevel, floodLevel))
  {
    FloodRiskIsHighestReached(level2, dangerLevel, floodLevel);
    assert Reaches(level2, dangerLevel, floodLevel, CalculateFloodRisk(level1, dangerLevel, floodLevel));
  }

  /**
   * When the flood level lies below the danger level, the flood check comes
   * first and danger is never returned.
   */
  lemma InvertedStationNeverDanger(level: real, dangerLevel: real, floodLevel: real)
    requires floodLevel < dangerLevel
    ensures CalculateFloodRisk(level, dangerLevel, floodLevel) != Danger
    ensures level >= floodLevel ==> CalculateFloodRisk(level, dangerLevel, floodLevel) == Critical
  {
  }

  /** The points with danger 290 and flood 295 on which code and tests agree; 232 is exactly 80% of 290. */
  lemma FloodRiskTestPoints()
    ensures CalculateFloodRisk(232.0, 290.0, 295.0) == Warning
    ensures CalculateFloodRisk(231.99, 290.0, 295.0) == Safe
    ensures CalculateFloodRisk(291.0, 290.0, 295.0) == Danger
    ensures CalculateFloodRisk(296.0, 290.0, 295.0) == Critical
    ensures CalculateFloodRisk(295.0, 290.0, 295.0) == Critical
  {
  }

  /**
   * Levels 280 and 285 against danger 290 are warnings, not safe: both lie at or
   * above 232. A classifier that is monotone in the level cannot call 232 a
   * warning and 280 safe, so no reading of the code meets both expectations.
   */
  lemma BelowDangerButAboveEightyPercentIsWarning(f: real -> RiverLevelStatus)
    requires forall a: real, b: real :: a <= b ==> RiskRank(f(a)) <= RiskRank(f(b))
    ensures CalculateFloodRisk(280.0, 290.0, 295.0) == Warning
    ensures CalculateFloodRisk(285.0, 290.0, 295.0) == Warning
    ensures !(f(232.0) == Warning && f(280.0) == Safe)
  {
    assert RiskRank(f(232.0)) <= RiskRank(f(280.0));
  }

  /** `getStationById`: the station, or NotFound naming the id. */
  function GetStationById(stations: map<string, Station>, id: string): (r: Result<Station, HttpError>)
    ensures r.Ok? <==> id in stations
    ensures r.Ok? ==> r.value == stations[id]
    ensures r.Err? ==> r.error == NotFound("Station with ID " + id + " not found")
  {
    LookupById(stations, id, "Station")
  }

  /**
   * `createLevel`: NotFound for an unknown station, with nothing written;
   * otherwise one row is appended holding the level, the flood risk against the
   * station's levels, and the body's timestamp or `now`.
   */
  function CreateLevel(stations: map<string, Station>, rows: seq<Stamped<Level>>, dto: CreateRiverLevelDto, now: int)
    : (r: Result<(seq<Stamped<Level>>, Stamped<Level>), HttpError>)
    ensures r.Err? <==> dto.stationId !in stations
    ensures r.Err? ==> r.error == NotFound("Station with ID " + dto.stationId + " not found")
    ensures r.Ok? ==>
      var (rows', row) := r.value;
      var st := stations[dto.stationId];
      && rows' == rows + [row]
      && row.ownerId == dto.stationId
      && row.timestamp == (if dto.timestamp.Some? then dto.timestamp.value else now)
      && row.data.level == dto.level
      && row.data.status == CalculateFloodRisk(dto.level, st.dangerLevel, st.floodLevel)
  {
    match GetStationById(stations, dto.stationId)
    case Err(e) => Err(e)
    case Ok(st) =>
      var row := Stamped(dto.stationId, dto.timestamp.GetOr(now),
                         Level(dto.level, CalculateFloodRisk(dto.level, st.dangerLevel, st.floodLevel)));
      Ok((rows + [row], row))
  }

  /**
   * `getCurrentLevel`: NotFound for an unknown station. With no reading the view
   * has no level, status safe and an explanatory message; otherwise it shows the
   * newest reading's level and the risk recomputed against the station's levels.
   */
  function GetCurrentLevel(stations: map<string, Station>, rows: seq<Stamped<Level>>, stationId: string)
    : (r: Result<CurrentLevel, HttpError>)
    ensures r.Err? <==> stationId !in stations
    ensures r.Err? ==> r.error == NotFound("Station with ID " + stationId + " not found")
    ensures r.Ok? ==> r.value.station == stations[stationId]
    ensures r.Ok? && Latest(rows, stationId).None? ==>
      && r.value.level.None?
      && r.value.status == Safe
      && r.value.message == Some("No level data available")
    ensures r.Ok? && Latest(rows, stationId).Some? ==>
      var row := rows[Latest(rows, stationId).value];
      var st := stations[stationId];
      && r.value.level == Some(row.data.level)
      && r.value.timestamp == Some(row.timestamp)
      && r.value.status == CalculateFloodRisk(row.data.level, st.dangerLevel, st.floodLevel)
      && r.value.message.None?
  {
    match GetStationById(stations, stationId)
    case Err(e) => Err(e)
    case Ok(st) =>
      match Latest(rows, stationId)
      case None => Ok(CurrentLevel(st, None, None, Safe, Some("No level data available")))
      case Some(k) =>
        Ok(CurrentLevel(st, Some(rows[k].data.level), Some(rows[k].timestamp),
                        CalculateFloodRisk(rows[k].data.level, st.dangerLevel, st.floodLevel), None))
  }

  /**
   * A latest reading of 285 at a station with danger 290 and flood 295 is shown
   * as a warning, since 285 is above 80% of 290.
   */
  lemma CurrentLevelAt285IsWarning(rows: seq<Stamped<Level>>, st: Station)
    requires st.dangerLevel == 290.0 && st.floodLevel == 295.0
    requires Latest(rows, st.id).Some? && rows[Latest(rows, st.id).value].data.level == 285.0
    ensures var r := GetCurrentLevel(map[st.id := st], rows, st.id);
      r.Ok? && r.value.level == Some(285.0) && r.value.status == Warning
  {
  }

  /**
   * Recording a reading newer than every earlier one of its station makes it the
   * one `getCurrentLevel` shows, with the status that was stored.
   */
  lemma CreateThenCurrent(stations: map<string, Station>, rows: seq<Stamped<Level>>, dto: CreateRiverLevelDto, now: int)
    requires CreateLevel(stations, rows, dto, now).Ok?
    requires forall i :: 0 <= i < |rows| && rows[i].ownerId == dto.stationId ==>
      rows[i].timestamp < dto.timestamp.GetOr(now)
    ensures var (rows', row) := CreateLevel(stations, rows, dto, now).value;
      var cur := GetCurrentLevel(stations, rows', dto.stationId);
      && cur.Ok?
      && cur.value.level == Some(dto.level)
      && cur.value.status == row.data.status
  {
    var (rows', row) := CreateLevel(stations, rows, dto, now).value;
    LatestAfterNewerRow(rows, row);
  }

  /**
   * `getHistoricalLevels`: NotFound when the station id is missing or empty;
   * otherwise the station's rows inside the optional window.
   */
  function GetHistoricalLevels(rows: seq<Stamped<Level>>, stationId: Option<string>, start: Option<int>, end: Option<int>)
    : (r: Result<seq<Stamped<Level>>, HttpError>)
    ensures r.Err? <==> stationId.None? || stationId.value == ""
    ensures r.Err? ==> r.error == NotFound("Station ID is required")
    ensures r.Ok? ==> forall x :: x in r.value <==>
      x in rows && x.ownerId == stationId.value && InWindow(x.timestamp, start, end)
  {
    if stationId.None? || stationId.value == "" then Err(NotFound("Station ID is required"))
    else Ok(Window(rows, stationId.value, start, end))
  }
}

=== FILE: subscriptions.dfy ===
/**
 * The subscription registry both WebSocket gateways keep: for each subscribed
 * topic (a station id or a dam id), the set of ids of the connected clients
 * following it. A topic whose set empties is dropped from the map.
 */
module Subscriptions {

  type Registry = map<string, set<string>>

  /** No topic maps to an empty set. */
  ghost predicate NoEmptySets(reg: Registry) {
    forall t :: t in reg ==> reg[t] != {}
  }

  /** `client` follows `topic`. */
  predicate Follows(reg: Registry, topic: string, client: string) {
    topic in reg && client in reg[topic]
  }

  /** Subscribe: create the topic's set if absent, then add the client to it. */
  function Subscribe(reg: Registry, topic: string, client: string): (r: Registry)
    ensures topic in r && r[topic] == (if topic in reg then reg[topic] else {}) + {client}
    ensures forall t :: t != topic ==> (t in r <==> t in reg)
    ensures forall t :: t != topic && t in r ==> r[t] == reg[t]
    ensures NoEmptySets(reg) ==> NoEmptySets(r)
  {
    var clients := if topic in reg then reg[topic] else {};
    reg[topic := clients + {client}]
  }

  /**
   * Unsubscribe: remove the client from the topic's set and drop the topic once
   * its set is empty; an unknown topic is left alone.
   */
  function Unsubscribe(reg: Registry, topic: string, client: string): (r: Registry)
    ensures topic !in reg ==> r == reg
    ensures topic in reg ==> (topic in r <==> reg[topic] - {client} != {})
    ensures topic in r ==> r[topic] == reg[topic] - {client}
    ensures forall t :: t != topic ==> (t in r <==> t in reg)
    ensures forall t :: t != topic && t in r ==> r[t] == reg[t]
    ensures NoEmptySets(reg) ==> NoEmptySets(r)
  {
    if topic in reg then
      var rest := reg[topic] - {client};
      if |rest| == 0 then reg - {topic} else reg[topic := rest]
    else reg
  }

  /**
   * Disconnect: remove the client from every set, dropping the sets that empty.
   * The result never holds an empty set, whatever the registry held before.
   */
  function Disconnect(reg: Registry, client: string): (r: Registry)
    ensures forall t :: t in r ==> client !in r[t]
    ensures forall t, c :: c != client ==> (Follows(r, t, c) <==> Follows(reg, t, c))
    ensures forall t :: t in r ==> t in reg && r[t] == reg[t] - {client}
    ensures NoEmptySets(r)
  {
    var r := map t | t in reg && reg[t] - {client} != {} :: reg[t] - {client};
    assert forall t, c :: c != client && Follows(reg, t, c) ==> t in r by {
      forall t, c | c != client && Follows(reg, t, c) ensures t in r {
        assert c in reg[t] - {client};
      }
    }
    r
  }

  /** Subscribing twice is the same as subscribing once. */
  lemma SubscribeIdempotent(reg: Registry, topic: string, client: string)
    ensures Subscribe(Subscribe(reg, topic, client), topic, client) == Subscribe(reg, topic, client)
  {
  }

  /**
   * For a client not yet following the topic, subscribing and then
   * unsubscribing restores the registry exactly.
   */
  lemma SubscribeThenUnsubscribe(reg: Registry, topic: string, client: string)
    requires NoEmptySets(reg)
    requires !Follows(reg, topic, client)
    ensures Unsubscribe(Subscribe(reg, topic, client), topic, client) == reg
  {
    var r := Unsubscribe(Subscribe(reg, topic, client), topic, client);
    if topic in reg {
      assert reg[topic] + {client} - {client} == reg[topic];
    } else {
      assert {client} - {client} == {};
    }
  }

  /** After a disconnect the client follows nothing, and a later unsubscribe changes nothing. */
  lemma DisconnectThenUnsubscribe(reg: Registry, topic: string, client: string)
    ensures forall t :: !Follows(Disconnect(reg, client), t, client)
    ensures Unsubscribe(Disconnect(reg, client), topic, client) == Disconnect(reg, client)
  {
    var d := Disconnect(reg, client);
    if topic in d {
      assert d[topic] - {client} == d[topic];
    }
  }

  /**
   * What a message handler leaves behind when the framework binds only its
   * `@MessageBody()` parameter and hands it no socket: the registry after the
   * statements that ran, and whether it threw on the undefined client.
   */
  datatype Outcome = Outcome(registry: Registry, threw: bool)

  /**
   * Subscribe with no socket: an unknown topic first gets an empty set, then
   * reading the client's id throws, so nobody is added. The registry keeps the
   * no-empty-set invariant exactly when the topic was already known.
   */
  function SubscribeUnbound(reg: Registry, topic: string): (r: Outcome)
    ensures r.threw
    ensures topic in r.registry
    ensures forall c :: Follows(r.registry, topic, c) <==> Follows(reg, topic, c)
    ensures forall t :: t != topic ==> (t in r.registry <==> t in reg)
    ensures forall t :: t != topic && t in r.registry ==> r.registry[t] == reg[t]
    ensures NoEmptySets(reg) ==> (NoEmptySets(r.registry) <==> topic in reg)
  {
    var clients := if topic in reg then reg[topic] else {};
    Outcome(reg[topic := clients], true)
  }

  /**
   * Unsubscribe with no socket: deleting the client's id from a known topic's
   * set, or leaving the room for an unknown one, throws before any change.
   */
  function UnsubscribeUnbound(reg: Registry, topic: string): (r: Outcome)
    ensures r.threw
    ensures r.registry == reg
  {
    Outcome(reg, true)
  }

  /** A disconnect, which does receive its socket, removes an empty set left behind. */
  lemma DisconnectClearsUnboundLeftover(reg: Registry, topic: string, client: string)
    requires NoEmptySets(reg)
    ensures NoEmptySets(Disconnect(SubscribeUnbound(reg, topic).registry, client))
    ensures topic !in reg ==> topic !in Disconnect(SubscribeUnbound(reg, topic).registry, client)
  {
  }
}

=== FILE: ui_store.dfy ===
/**
 * The UI store: whether the sidebar is open, and which modals are open. Every
 * action replaces the state by a new one; the store's merge keeps the fields an
 * action does not name.
 */
module UiStore {

  datatype UIState = UIState(sidebarOpen: bool, modals: map<string, bool>)

  /** The initial state: sidebar closed, no modal recorded. */
  function Init(): (s: UIState)
    ensures !s.sidebarOpen && s.modals == map[]
  {
    UIState(false, map[])
  }

  /** `setSidebarOpen(open)`: the sidebar is exactly `open`; the modals stay. */
  function SetSidebarOpen(s: UIState, open: bool): (r: UIState)
    ensures r.sidebarOpen == open && r.modals == s.modals
  {
    s.(sidebarOpen := open)
  }

  /** `toggleSidebar`: the sidebar flips; the modals stay. */
  function ToggleSidebar(s: UIState): (r: UIState)
    ensures r.sidebarOpen != s.sidebarOpen && r.modals == s.modals
  {
    s.(sidebarOpen := !s.sidebarOpen)
  }

  /** Toggling twice restores the state, and a toggle is a set to the opposite value. */
  lemma ToggleTwiceIsIdentity(s: UIState)
    ensures ToggleSidebar(ToggleSidebar(s)) == s
    ensures ToggleSidebar(s) == SetSidebarOpen(s, !s.sidebarOpen)
  {
  }

  /** `openModal(id)`: that modal is recorded open; every other entry and the sidebar stay. */
  function OpenModal(s: UIState, modalId: string): (r: UIState)
    ensures modalId in r.modals && r.modals[modalId]
    ensures forall k :: k != modalId ==> (k in r.modals <==> k in s.modals)
    ensures forall k :: k != modalId && k in r.modals ==> r.modals[k] == s.modals[k]
    ensures r.sidebarOpen == s.sidebarOpen
  {
    s.(modals := s.modals[modalId := true])
  }

  /** `closeModal(id)`: that modal is recorded closed, the key kept; every other entry and the sidebar stay. */
  function CloseModal(s: UIState, modalId: string): (r: UIState)
    ensures modalId in r.modals && !r.modals[modalId]
    ensures forall k :: k != modalId ==> (k in r.modals <==> k in s.modals)
    ensures forall k :: k != modalId && k in r.modals ==> r.modals[k] == s.modals[k]
    ensures r.sidebarOpen == s.sidebarOpen
  {
    s.(modals := s.modals[modalId := false])
  }

  /** Closing after opening leaves the modal recorded as closed, not removed. */
  lemma OpenThenClose(s: UIState, modalId: string)
    ensures CloseModal(OpenModal(s, modalId), modalId) == CloseModal(s, modalId)
    ensures OpenModal(CloseModal(s, modalId), modalId) == OpenModal(s, modalId)
  {
  }
}

=== FILE: users_service.dfy ===
/**
 * The permission rules of the users service. Updating and deleting a user run
 * three guards in a fixed order: existence first, then ownership, then the role
 * rule; each failing guard raises its own exception with its own message.
 *
 * Users are a map from id to record. Role names are compared as strings, so
 * only the exact role `admin` grants the admin rights.
 */
module UsersService {
  import opened Wrappers

  datatype User = User(id: string, email: string, name: string, role: string)

  /** The authenticated caller. */
  datatype CurrentUser = CurrentUser(id: string, role: string)

  /** The update body; a field left out is `None`. */
  datatype UpdateUserDto = UpdateUserDto(email: Option<string>, name: Option<string>, role: Option<string>)

  const AdminRole: string := "admin"

  predicate IsAdmin(u: CurrentUser) {
    u.role == AdminRole
  }

  /** `updateDto.role` is truthy: present and not the empty string. */
  predicate ChangesRole(dto: UpdateUserDto) {
    dto.role.Some? && dto.role.value != ""
  }

  /** The row after `update({ data: dto })`: present fields overwrite, absent ones stay. */
  function ApplyUserUpdate(u: User, dto: UpdateUserDto): User {
    u.(email := dto.email.GetOr(u.email), name := dto.name.GetOr(u.name), role := dto.role.GetOr(u.role))
  }

  /**
   * `update`: NotFound for an unknown id, before any permission check; then
   * Forbidden for a non-admin touching another profile; then Forbidden for a
   * non-admin supplying a role. Otherwise only that user changes, in the fields
   * the body carries.
   */
  function Update(users: map<string, User>, id: string, dto: UpdateUserDto, current: CurrentUser)
    : (r: Result<(map<string, User>, User), HttpError>)
    ensures id !in users ==> r == Err(NotFound("User not found"))
    ensures id in users && current.id != id && !IsAdmin(current) ==>
      r == Err(Forbidden("You can only update your own profile"))
    ensures id in users && current.id == id && !IsAdmin(current) && ChangesRole(dto) ==>
      r == Err(Forbidden("Only admins can change user roles"))
    ensures r.Ok? <==> id in users && (IsAdmin(current) || (current.id == id && !ChangesRole(dto)))
    ensures r.Ok? ==>
      && r.value.0 == users[id := r.value.1]
      && r.value.1.id == users[id].id
      && (dto.email.Some? ==> r.value.1.email == dto.email.value)
      && (dto.name.Some? ==> r.value.1.name == dto.name.value)
      && (dto.role.Some? ==> r.value.1.role == dto.role.value)
      && (dto.email.None? ==> r.value.1.email == users[id].email)
      && (dto.name.None? ==> r.value.1.name == users[id].name)
      && (dto.role.None? ==> r.value.1.role == users[id].role)
  {
    if id !in users then Err(NotFound("User not found"))
    else if current.id != id && !IsAdmin(current) then Err(Forbidden("You can only update your own profile"))
    else if ChangesRole(dto) && !IsAdmin(current) then Err(Forbidden("Only admins can change user roles"))
    else
      var u := ApplyUserUpdate(users[id], dto);
      Ok((users[id := u], u))
  }

  /** An admin may update any existing user, the role included. */
  lemma AdminUpdatesAnyone(users: map<string, User>, id: string, dto: UpdateUserDto, current: CurrentUser)
    requires IsAdmin(current) && id in users
    ensures Update(users, id, dto, current).Ok?
    ensures dto.role.Some? ==> Update(users, id, dto, current).value.1.role == dto.role.value
  {
  }

  /** A non-admin supplying a role is refused even on their own profile. */
  lemma NonAdminCannotChangeOwnRole(users: map<string, User>, dto: UpdateUserDto, current: CurrentUser)
    requires !IsAdmin(current) && current.id in users && ChangesRole(dto)
    ensures Update(users, current.id, dto, current) == Err(Forbidden("Only admins can change user roles"))
  {
  }

  /**
   * A successful update by a non-admin touches only the caller's own row, and
   * can change its role only to the empty string, the one role value the
   * truthiness test lets through.
   */
  lemma NonAdminKeepsRoles(users: map<string, User>, id: string, dto: UpdateUserDto, current: CurrentUser)
    requires !IsAdmin(current) && Update(users, id, dto, current).Ok?
    ensures var after := Update(users, id, dto, current).value.0;
      && id == current.id
      && after.Keys == users.Keys
      && (forall k :: k in users && k != id ==> after[k] == users[k])
      && (after[id].role == users[id].role || (dto.role == Some("") && after[id].role == ""))
  {
  }

  /**
   * `delete`: NotFound for an unknown id, then Forbidden unless the caller is an
   * admin; otherwise exactly that user is removed and the success message returned.
   */
  function Delete(users: map<string, User>, id: string, current: CurrentUser)
    : (r: Result<(map<string, User>, string), HttpError>)
    ensures id !in users ==> r == Err(NotFound("User not found"))
    ensures id in users && !IsAdmin(current) ==> r == Err(Forbidden("Only admins can delete users"))
    ensures r.Ok? <==> id in users && IsAdmin(current)
    ensures r.Ok? ==>
      && r.value.1 == "User deleted successfully"
      && id !in r.value.0
      && r.value.0.Keys == users.Keys - {id}
      && forall k :: k in r.value.0 ==> r.value.0[k] == users[k]
  {
    if id !in users then Err(NotFound("User not found"))
    else if !IsAdmin(current) then Err(Forbidden("Only admins can delete users"))
    else Ok((users - {id}, "User deleted successfully"))
  }
}

=== FILE: wrappers.dfy ===
/** Failure-carrying datatypes shared by every module of the model. */
module Wrappers {

  /** A value that may be absent: JavaScript's `undefined` / `null`. */
  datatype Option<+T> = None | Some(value: T) {

    /** The carried value, or `default` when absent. */
    function GetOr(default: T): T {
      match this
      case Some(v) => v
      case None => default
    }
  }

  /** Either a value or an error, standing for a returned value or a thrown exception. */
  datatype Result<+T, +E> = Ok(value: T) | Err(error: E)

  /** The HTTP exceptions the services throw, with the message they carry. */
  datatype HttpError =
    | NotFound(message: string)
    | Forbidden(message: string)

  /**
   * The `findUnique`-or-throw lookup every service starts with: the entity
   * stored under `id`, or NotFound naming the kind of entity and the id.
   */
  function LookupById<T>(entities: map<string, T>, id: string, kind: string): (r: Result<T, HttpError>)
    ensures r.Ok? <==> id in entities
    ensures r.Ok? ==> r.value == entities[id]
    ensures r.Err? ==> r.error == NotFound(kind + " with ID " + id + " not found")
  {
    if id in entities then Ok(entities[id]) else Err(NotFound(kind + " with ID " + id + " not found"))
  }
}
